=== FILE: README.md ===
# PichaScan core in Dafny

PichaScan is a desktop tool for digitising printed photographs. It scans a
flatbed page, finds the rectangular photos on it, crops each one out, and lets
the user adjust the detected outlines before saving. This project models the
logic at the centre of that tool and proves properties about it:

- **Photo detection** (`ScanProcessor.detectAndCropPhotos`). The contours of
  the thresholded scan are approximated by polygons. Each approximation with
  exactly four vertices and an area of at least 10000 square pixels becomes a
  region. A region records its corners, its inclusive bounding rectangle and
  the pixels cropped from that rectangle, and its outline is drawn on an
  annotated copy of the scan. The model also covers the second, earlier pass
  in the same function. That pass pre-filters contours by area strictly above
  10000 and keeps the 4-vertex approximations as `docs`.
- **The editable outline** (`QuadrilateralItem`). It has four corners and four
  edges, and edge *i* joins corner *i* to corner *(i+1) mod 4*. The edges are
  rebuilt whenever a corner moves. A right-button press on a corner deletes
  the whole quadrilateral.
- **The project file** (`Project`). A `ProjectData` record is converted to and
  from JSON. `checkProject` validates the structure of `<folder>/project.json`.
  `loadProject`, `updateProject` and `createProject` read and write that file,
  and `createProject` fills in the default scanner settings.
- **Image conversion** (`MainWindow::matToQImage`). A `cv::Mat` becomes a
  `QImage`, dispatched on the Mat's type code. 8-bit BGR is reordered to RGB,
  and 16-bit samples are first scaled to 8 bits. 8-bit BGRA is passed through
  in storage order: the code does not reorder its channels.
- **Scanner settings** (`WiaScanner`). The model covers the decisions inside
  the Windows Image Acquisition code:
  - the colour-mode numbers and their labels;
  - PROPVARIANT-to-text conversion;
  - the split of the resolution attribute into 16-bit words;
  - the name searches for a property and for a device;
  - the filtering of the scanner list;
  - the order of error checks in each operation.

External services are inputs:
- OpenCV's image-processing primitives are function parameters:
  - `approx` stands for `approxPolyDP`;
  - `draw` stands for `polylines`;
  - the contour list stands for `findContours` applied to the thresholded image.
- The file system is a map from path to parsed JSON document.
- The clock readings are string parameters.
- Every COM call is replaced by its `HRESULT`, which fails exactly when it is
  negative, or by the sequence its enumerator yields.
- Writing a property to a device is modelled as a list of
  (name, id, value) entries in which every entry with the written id takes the
  new value (`WiaScanner.Write`).
- Wide strings are `seq<char>` that may contain NUL. Where the code reads a
  BSTR or LPWSTR as a C string (building a `std::wstring` from it, comparing
  with it, or copying `value.c_str()` with `SysAllocString`), the model reads
  only the text before the first NUL (`WiaScanner.UpToNul`).

Exceptions become the `Err` case of `Outcomes.Result`. Where the program
throws itself (`std::runtime_error`, `std::invalid_argument`), the model keeps
the same exception kind and message text. Where an OpenCV assertion fails,
the model returns `CvError` with a descriptive text of its own.

Modules:
- `Outcomes`: results and exceptions.
- `Seqs`: order-preserving filtering and first-match search.
- `Geometry`: points, the shoelace area, bounding rectangles.
- `Images`: `cv::Mat` as rows of pixels.
- `Integers`: 32-bit integers and their decimal text.
- `JsonValue`: Qt's lenient JSON accessors.
- `ScanProcessor`, `QuadrilateralItem`, `Project`, `MatConversion`, `WiaScanner`.

## Model

| member | source | states |
|---|---|---|
| ScanProcessor.DetectAndCropPhotos | src/ScanProcessor.cpp:4-114 | An empty image gives an empty result. A non-empty image that is not 8-bit with 1 or 3 channels raises an OpenCV error, because its grayscale copy, and so the thresholded image, is not the 8-bit single-channel image that `findContours` requires. Otherwise the call succeeds exactly when every accepted quad's bounding box lies inside the image. Region k then has the k-th accepted approximation as its corners, which are 4 points of area at least 10000. Its box is their bounding rectangle and its crop is the image inside that box. The annotated image has every accepted outline drawn in order. |
| ScanProcessor.CollectRegions | src/ScanProcessor.cpp:79-111 | The loop over accepted quads yields one region per quad, in order, with all outlines drawn. It fails with an OpenCV error exactly when some bounding box leaves the image. |
| ScanProcessor.RegionFor | src/ScanProcessor.cpp:94-101 | A region keeps the approximated corners and their bounding rectangle. Its crop has the rectangle's size and holds the image pixel at each offset within the rectangle. |
| ScanProcessor.PhotoQuadsFollowContours | src/ScanProcessor.cpp:79-92 | Regions come from a strictly increasing selection of contours: at most one region per contour, in contour order. A contour is selected exactly when its approximation has 4 vertices and area of at least 10000. |
| ScanProcessor.CandidatesAndDocsSelect | src/ScanProcessor.cpp:55-76 | The pre-filter keeps, in order, exactly the contours whose area is strictly above 10000. The `docs` list keeps, in order, exactly the candidate approximations with 4 vertices. |
| ScanProcessor.AreaBoundaryDiffers | src/ScanProcessor.cpp:56-92 | The two area tests disagree at the boundary: a 4-vertex contour of area exactly 10000 that approxPolyDP returns unchanged is dropped by the pre-filter (strictly above 10000) but accepted as a region (not below 10000). |
| ScanProcessor.SquareOnBoundary | src/ScanProcessor.cpp:56-92 | Such contours exist: the axis-aligned 100 x 100 square has area exactly 10000. |
| ScanProcessor.DrawOutlinesSnoc | src/ScanProcessor.cpp:105-106 | Drawing one more outline on the annotated image extends the drawing of the outlines before it. |
| Geometry.BoundingRect | src/ScanProcessor.cpp:99-100 | The bounding rectangle has width and height of at least 1 and contains every corner. |
| Geometry.BoundingRectTouches | src/ScanProcessor.cpp:99-100 | Each of the bounding rectangle's four sides passes through some corner. |
| Geometry.BoundingRectIsSmallest | src/ScanProcessor.cpp:99-100 | Every rectangle containing all the corners also contains the bounding rectangle. |
| Geometry.QuadShoelace | src/ScanProcessor.cpp:88 | A quadrilateral's doubled signed area is the sum of the cross products of its four edges. |
| Geometry.QuadAreaIgnoresWinding | src/ScanProcessor.cpp:88-89 | Reversing a quadrilateral's corner order negates its signed area and keeps the unsigned area that the size filter tests. |
| Images.Crop | src/ScanProcessor.cpp:101 | Cropping to a rectangle inside the image gives a well-formed Mat of the rectangle's size, with the same depth and channels, whose pixel (i, j) is the source pixel at the rectangle's origin plus (i, j). |
| QuadrilateralItem.NewQuad | src/QuadrilateralItem.cpp:8-34 | Construction succeeds exactly for 4 points. Any other count raises invalid_argument with the fixed message. On success the corners are the points in order and the edges join consecutive corners cyclically. |
| QuadrilateralItem.UpdateLines | src/QuadrilateralItem.cpp:37-42 | Rebuilding the edges keeps the corners and restores the outline invariant: edge i joins corner i to corner (i+1) mod 4. |
| QuadrilateralItem.MoveCorner | src/QuadrilateralItem.cpp:68-71 | Dragging corner k keeps the outline invariant and moves only corner k. Only the two edges that end at it change, and both now end at the new position. |
| QuadrilateralItem.OutlineClosed | src/QuadrilateralItem.cpp:37-42 | Each edge ends where the next one starts, the last wrapping round to the first. |
| QuadrilateralItem.EachCornerEndsTwoEdges | src/QuadrilateralItem.cpp:38-41 | In an outlined quad, corner k starts edge k and ends edge (k+3) mod 4. No other edge is built from corner k, so each corner is an endpoint of exactly two edges. |
| QuadrilateralItem.UpdateLinesIdempotent | src/QuadrilateralItem.cpp:37-42 | Rebuilding the edges twice gives the same item as rebuilding them once. |
| QuadrilateralItem.PressCorner | src/QuadrilateralItem.cpp:73-78 | A right-button press removes exactly that quadrilateral from the scene and keeps the others in order. Any other button changes nothing. |
| JsonValue.Get | src/Project.cpp:53-62 | Reading a key of a const object gives its value when present, and the undefined value when absent. |
| JsonValue.ToInt | src/Project.cpp:58-61 | A number with an integral value in int range converts to exactly that value. Every other value, including non-numbers, fractions and out-of-range numbers, gives 0. |
| JsonValue.IntRoundTrip | src/Project.cpp:36-39 | An int stored as a JSON number reads back unchanged. |
| Project.ToJson | src/Project.cpp:29-48 | The object has exactly the eleven field keys, with the location as a nested object of exactly the keys lat and lon. |
| Project.FromJson | src/Project.cpp:51-75 | Each text field is the stored string when the key holds a string, and "" when the key is missing or holds anything else. Each int field is 0 when the key is missing or not a number. The location is (0, 0) when imageLocation is missing or not an object. |
| Project.LocationOf | src/Project.cpp:64-72 | A missing or non-object imageLocation reads as (0, 0). |
| Project.FromJsonToJson | src/Project.cpp:29-75 | Reading back the JSON form of a record reproduces every field. |
| Project.ToJsonIsProjectObject | src/Project.cpp:116-135 | The JSON form of any record passes checkProject's structural checks. |
| Project.MissingKeyFailsCheck | src/Project.cpp:116-122 | An object missing any one of the ten required keys fails the structural check. |
| Project.ImageDateTimeOptional | src/Project.cpp:116-122 | imageDateTime is not required: a record's JSON form without that key still passes. |
| Project.ProjectFile | src/Project.cpp:79 | The project file path is the folder path followed by "/project.json". |
| Project.LoadProject | src/Project.cpp:78-95 | A file that cannot be opened raises "Unable to open file: " plus the path. A document that is not an object raises "Invalid JSON structure in file: " plus the path. Loading succeeds exactly when the file holds an object. |
| Project.CheckProject | src/Project.cpp:98-136 | The check is false when the file cannot be opened or does not hold an object. When it holds, all required keys are present and `imageLocation` is an object whose `lat` and `lon` are numbers. Conversely, an object with all of that passes. |
| Project.CheckedProjectLoads | src/Project.cpp:98-136 | A folder that passes checkProject also loads, and the loaded location is the stored lat/lon. |
| Project.UpdateProject | src/Project.cpp:139-152 | The result is true exactly when the file can be written. On failure nothing changes. Otherwise only the project file changes. |
| Project.UpdateThenLoad | src/Project.cpp:139-152 | What updateProject writes, loadProject reads back unchanged, and checkProject accepts. |
| Project.CreateProject | src/Project.cpp:5-26 | The result is true exactly when the project file can be written. On failure nothing changes. Otherwise the project file is added or replaced and every other file is unchanged. |
| Project.CreatedProjectDefaults | src/Project.cpp:5-26 | A created project passes the check and loads back with the given name, folder and clock readings. The defaults are dpi 300, colour 1, orientation 0, no images and "Default Scanner", with the modification date equal to the creation date and the fixed default location. |
| MatConversion.MatToQImage | src/MainWindow.cpp:138-174 | An empty Mat gives the null image. Otherwise conversion succeeds exactly for 8-bit 1/3/4-channel and 16-bit 1/3-channel Mats, and throws runtime_error with the fixed message for every other type. The image has the Mat's width and height, with format Grayscale8, RGB888 or RGBA8888 by channel count. |
| MatConversion.SupportedTypeCodes | src/MainWindow.cpp:144-174 | The accepted depth/channel pairs are exactly the type codes CV_8UC1, CV_8UC3, CV_8UC4, CV_16UC1 and CV_16UC3. |
| MatConversion.TypeCodeDecodes | src/MainWindow.cpp:145 | A Mat's type code determines its depth (code mod 8) and channel count (code div 8 plus 1). |
| MatConversion.ConvertedPixels | src/MainWindow.cpp:145-167 | Per pixel: 8-bit grey and BGRA samples pass through, 8-bit BGR becomes RGB, and 16-bit samples are scaled to 8 bits, with BGR then reordered to RGB. |
| MatConversion.Colour8RoundTrip | src/MainWindow.cpp:149-153 | 8-bit colour conversion loses nothing: reordering the image's pixels back to BGR recovers the Mat's samples. |
| MatConversion.SwapRedBlueInvolution | src/MainWindow.cpp:151 | Exchanging the first and third samples twice gives the pixel back. |
| MatConversion.Saturate8 | src/MainWindow.cpp:160-165 | Saturation lands in 0..255 and leaves in-range values unchanged. Negative values clamp to 0 and values above 255 clamp to 255. |
| MatConversion.Scale16To8Nearest | src/MainWindow.cpp:160-165 | A 16-bit sample scales to the 8-bit value nearest to sample * 255 / 65535. |
| MatConversion.Scale16To8Monotone | src/MainWindow.cpp:160-165 | Scaling keeps the order of intensities. |
| Integers.DecimalText | src/WiaScanner.cpp:195 | The decimal text of an integer starts with '-' exactly when the integer is negative. |
| Integers.NatDigitsValue | src/WiaScanner.cpp:195 | The digits written for a natural number denote that number. |
| Integers.DecimalRoundTrip | src/WiaScanner.cpp:195 | Parsing the decimal text of an integer gives the integer back. |
| Integers.DecimalTextInjective | src/WiaScanner.cpp:195 | Distinct integers have distinct decimal texts. |
| WiaScanner.UpToNul | src/WiaScanner.cpp:191-207 | A C-string reader sees a prefix of the wide string that contains no NUL and is followed by a NUL or by the end. A string without NUL is read whole. |
| WiaScanner.UpToNulIdempotent | src/WiaScanner.cpp:191-207 | Cutting at the first NUL twice is cutting once. |
| WiaScanner.EmbeddedNulIsCut | src/WiaScanner.cpp:191-198 | A BSTR holding "5", NUL, "x" converts to "5". |
| WiaScanner.PropVariantToString | src/WiaScanner.cpp:191-198 | A BSTR converts to its text up to the first NUL, an I4 to its canonical decimal text, which parses back to the same number, and any other type to the empty string. |
| WiaScanner.ColorOptionValue | src/WiaScanner.cpp:615-627 | Options 1, 2 and 3 map to WIA_DATA_COLOR, WIA_DATA_GRAYSCALE and WIA_DATA_THRESHOLD. Every other option is rejected. |
| WiaScanner.ColorLabel | src/WiaScanner.cpp:585-598 | Each of COLOR, GRAYSCALE and THRESHOLD has exactly its own label. "Unknown" is reported exactly for every other value. |
| WiaScanner.ColorOptionLabels | src/WiaScanner.cpp:585-624 | The label of the value written for option n is "Color", "Grayscale" or "Black and White" for n = 1, 2, 3, and never "Unknown". |
| WiaScanner.ColorOptionInjective | src/WiaScanner.cpp:615-624 | Different valid options write different values. |
| WiaScanner.SetColorOption | src/WiaScanner.cpp:613-655 | An invalid option raises invalid_argument before the device is consulted. Then the checks run in order: a missing device, a failed storage query, then a failed write, each with its message and the HRESULT in decimal. Success happens exactly when all of these pass, and writes the mapped value to the data-type property. |
| WiaScanner.CurrentColorLabel | src/WiaScanner.cpp:565-610 | A label is reported exactly when a device is selected, both the storage query and the read succeed, and the data-type property holds an I4. The label is then the one for that I4 value. |
| WiaScanner.SetThenReportColor | src/WiaScanner.cpp:565-655 | After setting option 1, 2 or 3 on a device that has the data-type property, the current-colour report gives that option's label. |
| WiaScanner.SetDpi | src/WiaScanner.cpp:534-561 | The error checks run in order (missing device, failed storage query, failed write), with their messages. Success happens exactly when all pass, and then the horizontal resolution holds the dpi as an I4 and every other property is unchanged. |
| WiaScanner.UlVal | src/WiaScanner.cpp:511-512 | The unsigned reading of a LONG is the same value when non-negative, and 2^32 more when negative. |
| WiaScanner.SplitResolution | src/WiaScanner.cpp:512-514 | The minimum and maximum are 16-bit words that recombine to the attribute value (min + max * 65536). |
| WiaScanner.StepIsMax | src/WiaScanner.cpp:512-514 | The value printed as the step always equals the maximum. |
| WiaScanner.ResolutionAttribute | src/WiaScanner.cpp:510-523 | A range is reported exactly when the attribute read succeeds with an I4, and its words recombine to that I4's unsigned bits. |
| WiaScanner.SetScannerProperty | src/WiaScanner.cpp:256-304 | The checks run in order: no device, a failed storage query, a failed enumeration. Once they pass, "Property not found" is raised exactly when no stored name, read up to its first NUL, equals the requested name. A failed write of a found property raises "Failed to set property". The call succeeds exactly when all checks pass, the name is found and the write succeeds. The result is then the storage with the id of the first property of that name set to the value up to its first NUL, as a BSTR. Every failure is a runtime_error. |
| WiaScanner.SetScannerPropertyFirstMatch | src/WiaScanner.cpp:274-296 | With distinct property ids, only the first property with the name receives the value up to its first NUL, as a BSTR. Every other entry is unchanged, including later entries of the same name. |
| WiaScanner.PopulateAvailableScanners | src/WiaScanner.cpp:82-118 | A missing manager and a failed enumeration raise their errors. Otherwise every device whose name reads as a BSTR is listed by that name up to its first NUL, and the list is non-empty exactly when some device has such a name. |
| WiaScanner.PopulateKeepsOrder | src/WiaScanner.cpp:96-110 | The list is exactly the readable names, each up to its first NUL, in enumeration order: a strictly increasing selection of devices, where a device is selected exactly when its name read succeeds as a BSTR. |
| WiaScanner.Initialize | src/WiaScanner.cpp:29-63 | Failures of CoInitialize, CoCreateInstance and the enumeration produce their messages in that order, and an empty list raises "No scanners found.". Success happens exactly when all three succeed and some scanner name is readable, and then the result is the scanner list. |
| WiaScanner.EqualsIgnoreCaseProperties | src/WiaScanner.cpp:160 | The name comparison is reflexive, symmetric and transitive, and a name equals its upper-case form. |
| WiaScanner.FindDeviceByName | src/WiaScanner.cpp:140-188 | A failed enumeration or no matching name gives no device. A device found comes from the first readable name that matches ignoring case, both names compared up to their first NUL, with a successful id read and a successful creation. |
| WiaScanner.FindDeviceFirstMatchDecides | src/WiaScanner.cpp:152-179 | The first match decides the result: if its id read or creation fails, there is no device, whatever matches follow. |
| WiaScanner.SetPreferredScanner | src/WiaScanner.cpp:124-138 | A missing manager raises an error. A name that finds no device raises "Scanner not found". A name that finds a device selects exactly that device. |

## Left out

- The contour-extraction pipeline itself is not modelled. This covers grayscale conversion, Otsu thresholding and `findContours` (src/ScanProcessor.cpp:17-31), as well as the blur, Canny and second `findContours` (src/ScanProcessor.cpp:33-53). They are OpenCV internals, and the function's input is the resulting contour list. Only their type requirement is kept (`ScanProcessor.ContourReady`): they succeed for 8-bit images with 1 or 3 channels and throw otherwise. The second block redeclares `gray` and `contours` in the same scope and reads a fixed file `scan.jpg`. The model therefore treats the contour list as one input, shared by the candidate/`docs` pass and the region loop. The `docs` list is computed but never used.
- The text of an OpenCV assertion failure is not modelled. `CvError` carries a descriptive placeholder, not the message `cv::Exception` would hold. The model keeps only the fact that the call throws and where.
- `approxPolyDP`, `arcLength` and `polylines` are uninterpreted function parameters: their geometry is OpenCV's.
- Geometry.TwiceArea: `contourArea` sums in `double`. The model computes the exact integer shoelace sum, so it does not model rounding for coordinates large enough to lose precision. It also does not model any overflow of the `int` point coordinates.
- ScanProcessor.CollectRegions: it filters the approximations first and then visits the survivors, instead of testing each contour inside the loop. This is the same computation because the test and `approx` have no side effects.
- The annotation colour and thickness of `polylines` are inside the `draw` parameter.
- QuadrilateralItem: Qt scene-graph plumbing is left out. This covers pens sized from the scene width, corner rectangles, cursors, z-order, signal connections and memory management (`delete this`). Corner positions are integer points rather than `qreal`.
- The file system is not modelled as bytes. JSON text serialisation and parsing (`QJsonDocument::toJson` / `fromJson`) and UTF-8 conversion of `std::string` are not modelled. A document that does not parse is the null document. A failed or partial `file.write` is not modelled: `updateProject` reports only whether the file opened.
- JSON numbers are reals. NaN and infinite doubles, which Qt writes as null, are not represented.
- `QDateTime::currentDateTime()` is two string parameters, the ISO and `yyyy:MM:dd HH:mm:ss` renderings, because the clock is outside the model.
- MatConversion.Scale16To8: `convertTo` multiplies by the floating-point constant 255/65535 and rounds. The model uses the exact rational value (v + 128) div 257, saturated. This is equal on the 16-bit range because v/257 never lies within floating-point error of a half-integer. The floating-point computation itself is not modelled.
- MatConversion.MatToQImage: pixel buffers, row strides (`mat.step`), the deep copy and `qDebug` logging are left out. Sample values of an 8-bit Mat are taken as given.
- WiaScanner: COM is not modelled. This covers reference counting, `PropVariantClear`, `CoTaskMemFree`, scanning and image transfer (`idtGetData`, the data callback, temporary files, `imread`, `DeleteFile`) and console output. `getAllScannerProperties`, `printDeviceProperties` and `cleanup` are left out because their only effects are logging, COM release and a map built from PropVariantToString, which is modelled.
- WiaScanner.EqualsIgnoreCaseProperties: `_wcsicmp` folds case as `towlower` does in the current locale. The model folds only ASCII A-Z, as the default "C" locale does.
- WiaScanner.FindDeviceByName: the created `IWiaItem` is represented by the device id it was created from. That id is the whole BSTR passed to `CreateDevice`, because a BSTR carries its length and no C-string conversion happens there.
- WiaScanner.SetScannerProperty: a property enumerated with a null `lpwstrName` is not modelled; every stored property has a name.
- WiaScanner.SetScannerProperty: the `MIN_PROPID` argument of `WriteMultiple` is not modelled, because it only matters for properties that do not exist yet. The write itself is modelled as `WiaScanner.Write`, which stores the value under the property id.
- WiaScanner.Initialize: the destructor path and the repeated `CoUninitialize` on failure are left out.
- `cropImages`, `computeCentroid`, `sortQuadsByCenter`, `ImageSaver` and the platform factory in `ScannerInterface` are not part of this model, because they have no implementation in the modelled files or are thin wrappers around library calls.

=== FILE: geometry.dfy ===
/** Integer plane geometry used by photo-region detection: points, polygons,
    axis-aligned rectangles, the shoelace area that cv::contourArea computes
    and the inclusive bounding rectangle that cv::boundingRect computes. */
module Geometry {

  /** A cv::Point: integer pixel coordinates. */
  datatype Point = Point(x: int, y: int)

  /** A contour or polygon approximation: a closed chain of points. */
  type Polygon = seq<Point>

  /** A cv::Rect: top-left corner and size. */
  datatype Rect = Rect(x: int, y: int, width: int, height: int)

  function Abs(n: int): nat
  {
    if n < 0 then -n else n
  }

  function Cross(a: Point, b: Point): int
  {
    a.x * b.y - b.x * a.y
  }

  /** Sum of the cross products of edges i .. |poly|-1 of the closed polygon. */
  function ShoelaceFrom(poly: Polygon, i: nat): int
    requires i <= |poly|
    decreases |poly| - i
  {
    if i == |poly| then 0
    else Cross(poly[i], poly[(i + 1) % |poly|]) + ShoelaceFrom(poly, i + 1)
  }

  /** Twice the signed area enclosed by the polygon (shoelace formula). */
  function TwiceSignedArea(poly: Polygon): int
  {
    ShoelaceFrom(poly, 0)
  }

  /** Twice the unsigned area that cv::contourArea reports. The model compares
      this integer against twice a threshold instead of halving it. */
  function TwiceArea(poly: Polygon): nat
  {
    Abs(TwiceSignedArea(poly))
  }

  predicate Contains(r: Rect, p: Point)
  {
    r.x <= p.x < r.x + r.width && r.y <= p.y < r.y + r.height
  }

  function MinX(poly: Polygon): (m: int)
    requires |poly| > 0
    ensures exists i :: 0 <= i < |poly| && poly[i].x == m
    ensures forall i :: 0 <= i < |poly| ==> m <= poly[i].x
  {
    if |poly| == 1 then poly[0].x
    else var m' := MinX(poly[1..]); if poly[0].x <= m' then poly[0].x else m'
  }

  function MaxX(poly: Polygon): (m: int)
    requires |poly| > 0
    ensures exists i :: 0 <= i < |poly| && poly[i].x == m
    ensures forall i :: 0 <= i < |poly| ==> poly[i].x <= m
  {
    if |poly| == 1 then poly[0].x
    else var m' := MaxX(poly[1..]); if poly[0].x >= m' then poly[0].x else m'
  }

  function MinY(poly: Polygon): (m: int)
    requires |poly| > 0
    ensures exists i :: 0 <= i < |poly| && poly[i].y == m
    ensures forall i :: 0 <= i < |poly| ==> m <= poly[i].y
  {
    if |poly| == 1 then poly[0].y
    else var m' := MinY(poly[1..]); if poly[0].y <= m' then poly[0].y else m'
  }

  function MaxY(poly: Polygon): (m: int)
    requires |poly| > 0
    ensures exists i :: 0 <= i < |poly| && poly[i].y == m
    ensures forall i :: 0 <= i < |poly| ==> poly[i].y <= m
  {
    if |poly| == 1 then poly[0].y
    else var m' := MaxY(poly[1..]); if poly[0].y >= m' then poly[0].y else m'
  }

  /** cv::boundingRect of a point set: the smallest axis-aligned rectangle
      holding every point, with inclusive extents (width = maxX - minX + 1). */
  function BoundingRect(poly: Polygon): (r: Rect)
    requires |poly| > 0
    ensures r.width >= 1 && r.height >= 1
    ensures forall i :: 0 <= i < |poly| ==> Contains(r, poly[i])
  {
    var x0, x1, y0, y1 := MinX(poly), MaxX(poly), MinY(poly), MaxY(poly);
    Rect(x0, y0, x1 - x0 + 1, y1 - y0 + 1)
  }

  /** Each side of the bounding rectangle touches some point. */
  lemma BoundingRectTouches(poly: Polygon)
    requires |poly| > 0
    ensures exists i :: 0 <= i < |poly| && poly[i].x == BoundingRect(poly).x
    ensures exists i :: 0 <= i < |poly| && poly[i].x == BoundingRect(poly).x + BoundingRect(poly).width - 1
    ensures exists i :: 0 <= i < |poly| && poly[i].y == BoundingRect(poly).y
    ensures exists i :: 0 <= i < |poly| && poly[i].y == BoundingRect(poly).y + BoundingRect(poly).height - 1
  {
    var r := BoundingRect(poly);
    assert r.x == MinX(poly) && r.x + r.width - 1 == MaxX(poly);
    assert r.y == MinY(poly) && r.y + r.height - 1 == MaxY(poly);
  }

  /** No rectangle that holds every point is smaller than the bounding one:
      BoundingRect is the least enclosing rectangle. */
  lemma BoundingRectIsSmallest(poly: Polygon, q: Rect)
    requires |poly| > 0
    requires forall i :: 0 <= i < |poly| ==> Contains(q, poly[i])
    ensures q.x <= BoundingRect(poly).x && q.y <= BoundingRect(poly).y
    ensures BoundingRect(poly).x + BoundingRect(poly).width <= q.x + q.width
    ensures BoundingRect(poly).y + BoundingRect(poly).height <= q.y + q.height
  {
    var r := BoundingRect(poly);
    BoundingRectTouches(poly);
    var a :| 0 <= a < |poly| && poly[a].x == r.x;
    var b :| 0 <= b < |poly| && poly[b].x == r.x + r.width - 1;
    var c :| 0 <= c < |poly| && poly[c].y == r.y;
    var d :| 0 <= d < |poly| && poly[d].y == r.y + r.height - 1;
    assert Contains(q, poly[a]) && Contains(q, poly[b]);
    assert Contains(q, poly[c]) && Contains(q, poly[d]);
  }

  /** The shoelace sum of a quadrilateral, written out edge by edge. */
  lemma QuadShoelace(q: Polygon)
    requires |q| == 4
    ensures TwiceSignedArea(q) == Cross(q[0], q[1]) + Cross(q[1], q[2]) + Cross(q[2], q[3]) + Cross(q[3], q[0])
  {
    assert ShoelaceFrom(q, 4) == 0;
    assert ShoelaceFrom(q, 3) == Cross(q[3], q[0]);
    assert ShoelaceFrom(q, 2) == Cross(q[2], q[3]) + ShoelaceFrom(q, 3);
    assert ShoelaceFrom(q, 1) == Cross(q[1], q[2]) + ShoelaceFrom(q, 2);
  }

  /** Reversing the order of a quadrilateral's corners negates its signed
      area, so the unsigned area the detector filters on does not depend on
      winding direction. */
  lemma QuadAreaIgnoresWinding(a: Point, b: Point, c: Point, d: Point)
    ensures TwiceSignedArea([d, c, b, a]) == -TwiceSignedArea([a, b, c, d])
    ensures TwiceArea([d, c, b, a]) == TwiceArea([a, b, c, d])
  {
    QuadShoelace([a, b, c, d]);
    QuadShoelace([d, c, b, a]);
  }
}

=== FILE: images.dfy ===
/** The cv::Mat pixel container as the modelled code uses it: a grid of
    `rows` x `cols` pixels, each a sequence of `channels` samples of one depth. */
module Images {
  import opened Geometry

  /** OpenCV element depths (CV_8U .. CV_16F). */
  datatype Depth = U8 | S8 | U16 | S16 | S32 | F32 | F64 | F16

  /** The numeric CV_8U .. CV_16F constants. */
  function DepthCode(d: Depth): (code: nat)
    ensures code < 8
  {
    match d
    case U8 => 0
    case S8 => 1
    case U16 => 2
    case S16 => 3
    case S32 => 4
    case F32 => 5
    case F64 => 6
    case F16 => 7
  }

  /** One pixel: its channel samples in storage order (B, G, R[, A] for colour). */
  type Pixel = seq<int>

  /** `data[r][c]` is the pixel in row r, column c. */
  datatype Mat = Mat(depth: Depth, channels: nat, rows: nat, cols: nat, data: seq<seq<Pixel>>)

  /** CV_CN_MAX: the largest channel count a Mat type can encode. */
  const MaxChannels: nat := 512

  /** The shape invariant every cv::Mat satisfies. */
  predicate Valid(m: Mat)
  {
    && 1 <= m.channels <= MaxChannels
    && |m.data| == m.rows
    && (forall r :: 0 <= r < m.rows ==> |m.data[r]| == m.cols)
    && (forall r, c :: 0 <= r < m.rows && 0 <= c < m.cols ==> |m.data[r][c]| == m.channels)
  }

  /** cv::Mat::empty(): no elements at all. */
  predicate IsEmpty(m: Mat)
  {
    m.rows == 0 || m.cols == 0
  }

  /** A default-constructed cv::Mat. */
  const EmptyMat: Mat := Mat(U8, 1, 0, 0, [])

  /** cv::Mat::type(), i.e. CV_MAKETYPE(depth, channels). */
  function TypeCode(m: Mat): int
  {
    DepthCode(m.depth) + (m.channels - 1) * 8
  }

  /** The condition cv::Mat's region-of-interest constructor asserts. */
  predicate RoiInside(m: Mat, r: Rect)
  {
    && 0 <= r.x && 0 <= r.width && r.x + r.width <= m.cols
    && 0 <= r.y && 0 <= r.height && r.y + r.height <= m.rows
  }

  /** `m(r).clone()`: the pixels of `m` inside `r`, as a new Mat of r's size. */
  function Crop(m: Mat, r: Rect): (c: Mat)
    requires Valid(m) && RoiInside(m, r)
    ensures Valid(c)
    ensures c.rows == r.height && c.cols == r.width
    ensures c.depth == m.depth && c.channels == m.channels
    ensures forall i, j :: 0 <= i < r.height && 0 <= j < r.width ==> c.data[i][j] == m.data[r.y + i][r.x + j]
  {
    Mat(m.depth, m.channels, r.height, r.width,
        seq(r.height, i requires 0 <= i < r.height => m.data[r.y + i][r.x .. r.x + r.width]))
  }
}

=== FILE: integers.dfy ===
/** C++ `int` / `LONG` values and their decimal text as std::to_string and
    std::to_wstring write it: an optional '-' then the digits, no leading zeros. */
module Integers {
  import opened Outcomes

  const Int32Min: int := -0x8000_0000
  const Int32Max: int := 0x7fff_ffff

  /** A 32-bit signed integer (C++ `int`, Windows `LONG`, `HRESULT`). */
  newtype int32 = x: int | -0x8000_0000 <= x <= 0x7fff_ffff

  predicate IsDigit(c: char)
  {
    '0' <= c <= '9'
  }

  predicate AllDigits(s: string)
  {
    forall k :: 0 <= k < |s| ==> IsDigit(s[k])
  }

  function DigitChar(d: nat): (c: char)
    requires d < 10
    ensures IsDigit(c)
  {
    ('0' as int + d) as char
  }

  function DigitValue(c: char): (d: nat)
    requires IsDigit(c)
    ensures d < 10
    ensures DigitChar(d) == c
  {
    c as int - '0' as int
  }

  /** The decimal digits of n, most significant first. */
  function NatDigits(n: nat): (s: string)
    ensures |s| >= 1 && AllDigits(s)
    ensures |s| > 1 ==> s[0] != '0'
    decreases n
  {
    if n < 10 then [DigitChar(n)] else NatDigits(n / 10) + [DigitChar(n % 10)]
  }

  /** The number a digit string denotes. */
  function DigitsValue(s: string): nat
    requires AllDigits(s)
  {
    if |s| == 0 then 0 else DigitsValue(s[..|s| - 1]) * 10 + DigitValue(s[|s| - 1])
  }

  /** std::to_string of an integer. */
  function DecimalText(i: int): (s: string)
    ensures |s| >= 1
    ensures i >= 0 <==> s[0] != '-'
  {
    if i < 0 then "-" + NatDigits(-i) else NatDigits(i)
  }

  /** Reads back what DecimalText writes: an optional '-' and at least one digit. */
  function ParseDecimal(s: string): (r: Option<int>)
    ensures r.Some? ==> |s| >= 1 && (r.value < 0 <==> s[0] == '-')
  {
    if |s| >= 2 && s[0] == '-' && AllDigits(s[1..]) then
      if DigitsValue(s[1..]) == 0 then None else Some(0 - DigitsValue(s[1..]) as int)
    else if |s| >= 1 && AllDigits(s) then Some(DigitsValue(s))
    else None
  }

  lemma {:induction false} NatDigitsValue(n: nat)
    ensures DigitsValue(NatDigits(n)) == n
    decreases n
  {
    if n >= 10 {
      var s := NatDigits(n);
      assert s[..|s| - 1] == NatDigits(n / 10);
      NatDigitsValue(n / 10);
    }
  }

  lemma RoundTripNonNegative(n: nat)
    ensures ParseDecimal(DecimalText(n)) == Some(n as int)
  {
    var d := NatDigits(n);
    NatDigitsValue(n);
    assert d[0] != '-';
  }

  lemma RoundTripNegative(n: nat)
    requires n > 0
    ensures ParseDecimal(DecimalText(-(n as int))) == Some(-(n as int))
  {
    var d := NatDigits(n);
    NatDigitsValue(n);
    assert DecimalText(-(n as int))[1..] == d;
  }

  /** Decimal text loses nothing: parsing it gives the integer back. */
  lemma DecimalRoundTrip(i: int)
    ensures ParseDecimal(DecimalText(i)) == Some(i)
  {
    if i < 0 {
      RoundTripNegative(-i);
    } else {
      RoundTripNonNegative(i);
    }
  }

  /** Hence distinct integers have distinct decimal texts. */
  lemma DecimalTextInjective(i: int, j: int)
    requires DecimalText(i) == DecimalText(j)
    ensures i == j
  {
    DecimalRoundTrip(i);
    DecimalRoundTrip(j);
  }
}

=== FILE: json_value.dfy ===
/** The QJsonValue / QJsonObject operations the project file code uses.
    Qt has a single JSON number type (isDouble() holds for integers too), so a
    number is one `real`; doubles are only copied, never computed with. */
module JsonValue {
  import opened Integers

  datatype Json =
    | JNull
    | JBool(b: bool)
    | JNumber(n: real)
    | JString(s: string)
    | JArray(items: seq<Json>)
    | JObject(fields: map<string, Json>)
    | JUndefined   // what a const QJsonObject returns for a missing key

  /** `obj[key]` on a const object. */
  function Get(obj: map<string, Json>, key: string): (v: Json)
    ensures key in obj ==> v == obj[key]
    ensures key !in obj ==> v == JUndefined
  {
    if key in obj then obj[key] else JUndefined
  }

  /** QJsonValue::toString(): the text of a string, otherwise "". */
  function ToStr(v: Json): string
  {
    if v.JString? then v.s else ""
  }

  /** QJsonValue::toInt(): a number with an integral value that fits in an
      int converts to it; anything else gives 0. */
  function ToInt(v: Json): (i: int32)
    ensures v.JNumber? && v.n == v.n.Floor as real && Int32Min <= v.n.Floor <= Int32Max ==> i as real == v.n
    ensures !(v.JNumber? && v.n == v.n.Floor as real && Int32Min <= v.n.Floor <= Int32Max) ==> i == 0
  {
    if v.JNumber? && v.n == v.n.Floor as real && Int32Min <= v.n.Floor <= Int32Max then v.n.Floor as int32 else 0
  }

  /** QJsonValue::toDouble(): the number, otherwise 0. */
  function ToDouble(v: Json): real
  {
    if v.JNumber? then v.n else 0.0
  }

  /** QJsonValue::isDouble(): true of every number. */
  predicate IsDouble(v: Json)
  {
    v.JNumber?
  }

  /** QJsonValue::isObject(). */
  predicate IsObject(v: Json)
  {
    v.JObject?
  }

  /** An int stored as a JSON number reads back unchanged. */
  lemma IntRoundTrip(i: int32)
    ensures ToInt(JNumber(i as real)) == i
  {
    assert (i as real).Floor == i as int;
  }
}

=== FILE: mat_conversion.dfy ===
/** MainWindow::matToQImage: a cv::Mat turned into a QImage of the same
    size, dispatched on the Mat's type. 8-bit colour arrives in OpenCV's BGR
    order and leaves in QImage's RGB order; 16-bit samples are scaled into
    the 8-bit range first. */
module MatConversion {
  import opened Outcomes
  import opened Images

  /** The three QImage formats the conversion produces. */
  datatype Format = Grayscale8 | Rgb888 | Rgba8888

  /** A QImage: the null image, or `pixels[y][x]` samples in the format's order. */
  datatype QImage = NullImage | Image(format: Format, width: nat, height: nat, pixels: seq<seq<Pixel>>)

  /** The type codes matToQImage accepts, CV_MAKETYPE(depth, channels). */
  const Cv8UC1: int := 0
  const Cv8UC3: int := 16
  const Cv8UC4: int := 24
  const Cv16UC1: int := 2
  const Cv16UC3: int := 18

  const UnsupportedType: string := "Unsupported cv::Mat type for QImage conversion."

  /** The type code determines depth and channel count, so the dispatch on
      type() can be read as a dispatch on the pair. */
  lemma TypeCodeDecodes(m: Mat)
    requires Valid(m)
    ensures TypeCode(m) >= 0
    ensures TypeCode(m) % 8 == DepthCode(m.depth)
    ensures TypeCode(m) / 8 == m.channels - 1
  {
    var k := m.channels - 1;
    assert TypeCode(m) == DepthCode(m.depth) + k * 8;
    assert k * 8 >= 0;
  }

  /** cv::saturate_cast<uchar>. */
  function Saturate8(x: int): (r: int)
    ensures 0 <= r <= 255
    ensures 0 <= x <= 255 ==> r == x
    ensures x < 0 ==> r == 0
    ensures x > 255 ==> r == 255
  {
    if x < 0 then 0 else if x > 255 then 255 else x
  }

  /** convertTo with scale 255/65535: since 65535 = 255 * 257 this is v/257
      rounded to the nearest integer (no ties arise), then saturated. */
  function Scale16To8(v: int): int
  {
    Saturate8((v + 128) / 257)
  }

  /** On the 16-bit range the scaled value is the 8-bit value nearest to v/257. */
  lemma Scale16To8Nearest(v: int)
    requires 0 <= v <= 65535
    ensures 0 <= Scale16To8(v) <= 255
    ensures 257 * Scale16To8(v) - 128 <= v <= 257 * Scale16To8(v) + 128
  {
    var q := (v + 128) / 257;
    assert 257 * q <= v + 128 < 257 * q + 257;
    assert 0 <= q <= 255;
  }

  /** Scaling keeps the order of intensities. */
  lemma {:induction false} Scale16To8Monotone(v: int, w: int)
    requires v <= w
    ensures Scale16To8(v) <= Scale16To8(w)
  {
    DivMonotone(v + 128, w + 128);
  }

  lemma DivMonotone(a: int, b: int)
    requires a <= b
    ensures a / 257 <= b / 257
  {
    var qa, qb := a / 257, b / 257;
    assert 257 * qa <= a && b < 257 * qb + 257;
  }

  /** cv::COLOR_BGR2RGB on one pixel: first and third sample exchanged. */
  function SwapRedBlue(p: Pixel): (q: Pixel)
    ensures |q| == |p|
  {
    if |p| == 3 then [p[2], p[1], p[0]] else p
  }

  /** Swapping twice gives the pixel back. */
  lemma SwapRedBlueInvolution(p: Pixel)
    ensures SwapRedBlue(SwapRedBlue(p)) == p
  {
  }

  /** One sample-wise 16-to-8 bit conversion of a pixel. */
  function ScalePixel(p: Pixel): (q: Pixel)
    ensures |q| == |p|
    ensures forall k :: 0 <= k < |p| ==> q[k] == Scale16To8(p[k])
  {
    seq(|p|, k requires 0 <= k < |p| => Scale16To8(p[k]))
  }

  /** The whole grid with `f` applied to every pixel. */
  function MapPixels(f: Pixel -> Pixel, m: Mat): (g: seq<seq<Pixel>>)
    requires Valid(m)
    ensures |g| == m.rows
    ensures forall y :: 0 <= y < m.rows ==> |g[y]| == m.cols
    ensures forall y, x :: 0 <= y < m.rows && 0 <= x < m.cols ==> g[y][x] == f(m.data[y][x])
  {
    seq(m.rows, y requires 0 <= y < m.rows => seq(m.cols, x requires 0 <= x < m.cols => f(m.data[y][x])))
  }

  function Identity(p: Pixel): Pixel { p }
  function ScaleThenSwap(p: Pixel): Pixel { SwapRedBlue(ScalePixel(p)) }

  /** The (depth, channels) pairs matToQImage handles. */
  predicate Supported(m: Mat)
  {
    m.depth in {U8, U16} && (m.channels == 1 || m.channels == 3 || (m.depth == U8 && m.channels == 4))
  }

  /** matToQImage. An empty Mat gives the null image; an unsupported type
      throws; otherwise an image of the Mat's width and height. */
  function MatToQImage(m: Mat): (r: Result<QImage>)
    requires Valid(m)
    ensures IsEmpty(m) ==> r == Ok(NullImage)
    ensures !IsEmpty(m) ==> (r.Ok? <==> Supported(m))
    ensures r.Err? ==> r.error == RuntimeError(UnsupportedType)
    ensures !IsEmpty(m) && r.Ok? ==>
              && r.value.Image?
              && r.value.width == m.cols && r.value.height == m.rows
              && |r.value.pixels| == m.rows
              && (forall y :: 0 <= y < m.rows ==> |r.value.pixels[y]| == m.cols)
    ensures !IsEmpty(m) && r.Ok? ==>
              r.value.format == (if m.channels == 1 then Grayscale8 else if m.channels == 3 then Rgb888 else Rgba8888)
  {
    if IsEmpty(m) then Ok(NullImage)
    else match (m.depth, m.channels)
      case (U8, 1) => Ok(Image(Grayscale8, m.cols, m.rows, MapPixels(Identity, m)))
      case (U8, 3) => Ok(Image(Rgb888, m.cols, m.rows, MapPixels(SwapRedBlue, m)))
      case (U8, 4) => Ok(Image(Rgba8888, m.cols, m.rows, MapPixels(Identity, m)))
      case (U16, 1) => Ok(Image(Grayscale8, m.cols, m.rows, MapPixels(ScalePixel, m)))
      case (U16, 3) => Ok(Image(Rgb888, m.cols, m.rows, MapPixels(ScaleThenSwap, m)))
      case _ => Err(RuntimeError(UnsupportedType))
  }

  /** The accepted (depth, channels) pairs are exactly the five type codes. */
  lemma SupportedTypeCodes(m: Mat)
    requires Valid(m)
    ensures Supported(m) <==> TypeCode(m) in {Cv8UC1, Cv8UC3, Cv8UC4, Cv16UC1, Cv16UC3}
  {
    TypeCodeDecodes(m);
  }

  /** The pixels of a converted image, sample by sample: 8-bit grey and BGRA
      pass through, BGR is reordered to RGB, and 16-bit samples are scaled. */
  lemma ConvertedPixels(m: Mat, y: nat, x: nat)
    requires Valid(m) && !IsEmpty(m) && MatToQImage(m).Ok?
    requires y < m.rows && x < m.cols
    ensures var p := MatToQImage(m).value.pixels[y][x];
            var s := m.data[y][x];
            && |p| == m.channels
            && (m.depth == U8 && m.channels != 3 ==> p == s)
            && (m.depth == U8 && m.channels == 3 ==> p == [s[2], s[1], s[0]])
            && (m.depth == U16 && m.channels == 1 ==> p == [Scale16To8(s[0])])
            && (m.depth == U16 && m.channels == 3 ==> p == [Scale16To8(s[2]), Scale16To8(s[1]), Scale16To8(s[0])])
  {
  }

  /** For 8-bit colour the conversion loses nothing: reordering the image's
      pixels back to BGR recovers the Mat's samples. */
  lemma Colour8RoundTrip(m: Mat)
    requires Valid(m) && !IsEmpty(m) && m.depth == U8 && m.channels == 3
    ensures MatToQImage(m).Ok?
    ensures var img := MatToQImage(m).value;
            forall y, x :: 0 <= y < m.rows && 0 <= x < m.cols ==> SwapRedBlue(img.pixels[y][x]) == m.data[y][x]
  {
    var img := MatToQImage(m).value;
    forall y, x | 0 <= y < m.rows && 0 <= x < m.cols
      ensures SwapRedBlue(img.pixels[y][x]) == m.data[y][x]
    {
      SwapRedBlueInvolution(m.data[y][x]);
    }
  }
}

=== FILE: outcomes.dfy ===
/** Error values standing in for the C++ exceptions the modelled code throws,
    and the Option/Result wrappers the model returns instead of throwing. */
module Outcomes {

  /** The exception classes thrown by the modelled code. */
  datatype Exception =
    | InvalidArgument(what: string)   // std::invalid_argument
    | RuntimeError(what: string)      // std::runtime_error
    | CvError(what: string)           // cv::Exception raised by an OpenCV assertion

  datatype Option<+T> = None | Some(value: T)

  /** Either the value an operation returns or the exception it throws. */
  datatype Result<+T> = Ok(value: T) | Err(error: Exception)
}

=== FILE: project.dfy ===
/** The project file of a scanning session: the ProjectData record, its JSON
    form (toJson / fromJson), the structural validator checkProject, and the
    load / update / create operations on `<folder>/project.json`.
    The file system is a map from path to the document QJsonDocument::fromJson
    would parse from that file's bytes: a path absent from the map cannot be
    opened, and bytes that do not parse are held as the null document JNull.
    Clock readings are passed in as the text QDateTime would have produced. */
module Project {
  import opened Outcomes
  import opened JsonValue
  import opened Integers

  /** imageLocation: (latitude, longitude). */
  datatype Location = Location(lat: real, lon: real)

  datatype ProjectData = ProjectData(
    projectName: string,
    projectPath: string,
    createDate: string,
    modifiedDate: string,
    scannerName: string,
    scannerDpi: int32,
    scannerColor: int32,
    imagesCount: int32,
    scanOrientation: int32,
    imageDateTime: string,
    imageLocation: Location)

  /** The keys checkProject insists on. imageDateTime is not among them. */
  const RequiredKeys: set<string> :=
    {"projectName", "projectPath", "createDate", "modifiedDate", "scannerName",
     "scannerDpi", "scannerColor", "imagesCount", "scanOrientation", "imageLocation"}

  /** The keys toJson writes. */
  const WrittenKeys: set<string> := RequiredKeys + {"imageDateTime"}

  function LocationJson(loc: Location): map<string, Json>
  {
    map["lat" := JNumber(loc.lat), "lon" := JNumber(loc.lon)]
  }

  /** toJson: one key per field, the location as a nested {lat, lon} object. */
  function ToJson(d: ProjectData): (obj: map<string, Json>)
    ensures obj.Keys == WrittenKeys
    ensures obj["imageLocation"].JObject? && obj["imageLocation"].fields.Keys == {"lat", "lon"}
  {
    map[
      "projectName" := JString(d.projectName),
      "projectPath" := JString(d.projectPath),
      "createDate" := JString(d.createDate),
      "modifiedDate" := JString(d.modifiedDate),
      "scannerName" := JString(d.scannerName),
      "scannerDpi" := JNumber(d.scannerDpi as real),
      "scannerColor" := JNumber(d.scannerColor as real),
      "imagesCount" := JNumber(d.imagesCount as real),
      "scanOrientation" := JNumber(d.scanOrientation as real),
      "imageDateTime" := JString(d.imageDateTime),
      "imageLocation" := JObject(LocationJson(d.imageLocation))]
  }

  /** fromJson's reading of imageLocation: an object gives its lat and lon
      (each 0 when absent or not a number); anything else gives (0, 0). */
  function LocationOf(obj: map<string, Json>): (loc: Location)
    ensures !("imageLocation" in obj && IsObject(obj["imageLocation"])) ==> loc == Location(0.0, 0.0)
  {
    if "imageLocation" in obj && IsObject(obj["imageLocation"]) then
      var inner := obj["imageLocation"].fields;
      Location(ToDouble(Get(inner, "lat")), ToDouble(Get(inner, "lon")))
    else
      Location(0.0, 0.0)
  }

  /** fromJson: every field read with Qt's lenient conversions, so a missing
      or mistyped value becomes "" or 0 rather than an error. A number field
      that is present and integral is read as ToInt states. */
  function FromJson(obj: map<string, Json>): (r: ProjectData)
    ensures "projectName" in obj && obj["projectName"].JString? ==> r.projectName == obj["projectName"].s
    ensures !("projectName" in obj && obj["projectName"].JString?) ==> r.projectName == ""
    ensures "projectPath" in obj && obj["projectPath"].JString? ==> r.projectPath == obj["projectPath"].s
    ensures !("projectPath" in obj && obj["projectPath"].JString?) ==> r.projectPath == ""
    ensures "createDate" in obj && obj["createDate"].JString? ==> r.createDate == obj["createDate"].s
    ensures !("createDate" in obj && obj["createDate"].JString?) ==> r.createDate == ""
    ensures "modifiedDate" in obj && obj["modifiedDate"].JString? ==> r.modifiedDate == obj["modifiedDate"].s
    ensures !("modifiedDate" in obj && obj["modifiedDate"].JString?) ==> r.modifiedDate == ""
    ensures "scannerName" in obj && obj["scannerName"].JString? ==> r.scannerName == obj["scannerName"].s
    ensures !("scannerName" in obj && obj["scannerName"].JString?) ==> r.scannerName == ""
    ensures "imageDateTime" in obj && obj["imageDateTime"].JString? ==> r.imageDateTime == obj["imageDateTime"].s
    ensures !("imageDateTime" in obj && obj["imageDateTime"].JString?) ==> r.imageDateTime == ""
    ensures !("scannerDpi" in obj && obj["scannerDpi"].JNumber?) ==> r.scannerDpi == 0
    ensures !("scannerColor" in obj && obj["scannerColor"].JNumber?) ==> r.scannerColor == 0
    ensures !("imagesCount" in obj && obj["imagesCount"].JNumber?) ==> r.imagesCount == 0
    ensures !("scanOrientation" in obj && obj["scanOrientation"].JNumber?) ==> r.scanOrientation == 0
    ensures !("imageLocation" in obj && obj["imageLocation"].JObject?) ==> r.imageLocation == Location(0.0, 0.0)
  {
    ProjectData(
      ToStr(Get(obj, "projectName")),
      ToStr(Get(obj, "projectPath")),
      ToStr(Get(obj, "createDate")),
      ToStr(Get(obj, "modifiedDate")),
      ToStr(Get(obj, "scannerName")),
      ToInt(Get(obj, "scannerDpi")),
      ToInt(Get(obj, "scannerColor")),
      ToInt(Get(obj, "imagesCount")),
      ToInt(Get(obj, "scanOrientation")),
      ToStr(Get(obj, "imageDateTime")),
      LocationOf(obj))
  }

  /** The value toJson stores under each key. */
  lemma ToJsonFields(d: ProjectData)
    ensures var obj := ToJson(d);
            && obj["projectName"] == JString(d.projectName)
            && obj["projectPath"] == JString(d.projectPath)
            && obj["createDate"] == JString(d.createDate)
            && obj["modifiedDate"] == JString(d.modifiedDate)
            && obj["scannerName"] == JString(d.scannerName)
            && obj["scannerDpi"] == JNumber(d.scannerDpi as real)
            && obj["scannerColor"] == JNumber(d.scannerColor as real)
            && obj["imagesCount"] == JNumber(d.imagesCount as real)
            && obj["scanOrientation"] == JNumber(d.scanOrientation as real)
            && obj["imageDateTime"] == JString(d.imageDateTime)
            && obj["imageLocation"] == JObject(LocationJson(d.imageLocation))
  {
  }

  /** fromJson(toJson(d)) reproduces every field of d. */
  lemma FromJsonToJson(d: ProjectData)
    ensures FromJson(ToJson(d)) == d
  {
    ToJsonFields(d);
    IntRoundTrip(d.scannerDpi);
    IntRoundTrip(d.scannerColor);
    IntRoundTrip(d.imagesCount);
    IntRoundTrip(d.scanOrientation);
  }

  /** The structural checks checkProject makes of a parsed object. */
  predicate IsProjectObject(obj: map<string, Json>)
  {
    && RequiredKeys <= obj.Keys
    && IsObject(obj["imageLocation"])
    && "lat" in obj["imageLocation"].fields
    && "lon" in obj["imageLocation"].fields
    && IsDouble(obj["imageLocation"].fields["lat"])
    && IsDouble(obj["imageLocation"].fields["lon"])
  }

  /** Whatever toJson writes passes checkProject's structural checks. */
  lemma ToJsonIsProjectObject(d: ProjectData)
    ensures IsProjectObject(ToJson(d))
  {
  }

  /** A missing required key is enough to fail the check. */
  lemma MissingKeyFailsCheck(obj: map<string, Json>, key: string)
    requires key in RequiredKeys && key !in obj
    ensures !IsProjectObject(obj)
  {
  }

  /** imageDateTime is not required: toJson's output without it still passes. */
  lemma ImageDateTimeOptional(d: ProjectData)
    ensures IsProjectObject(ToJson(d) - {"imageDateTime"})
  {
    var obj := ToJson(d) - {"imageDateTime"};
    assert obj["imageLocation"] == JObject(LocationJson(d.imageLocation));
  }

  /** A file system: path -> parsed document; JNull for unparsable bytes. */
  type FileSystem = map<string, Json>

  /** The one file every operation reads or writes. */
  function ProjectFile(folderPath: string): (path: string)
    ensures |path| == |folderPath| + 13
    ensures path[..|folderPath|] == folderPath
    ensures path[|folderPath|..] == "/project.json"
  {
    folderPath + "/project.json"
  }

  /** loadProject: throws when the file cannot be opened or does not hold a
      JSON object; otherwise fromJson of that object. */
  function LoadProject(fs: FileSystem, folderPath: string): (r: Result<ProjectData>)
    ensures ProjectFile(folderPath) !in fs ==>
              r == Err(RuntimeError("Unable to open file: " + ProjectFile(folderPath)))
    ensures ProjectFile(folderPath) in fs && !IsObject(fs[ProjectFile(folderPath)]) ==>
              r == Err(RuntimeError("Invalid JSON structure in file: " + ProjectFile(folderPath)))
    ensures r.Ok? <==> ProjectFile(folderPath) in fs && IsObject(fs[ProjectFile(folderPath)])
  {
    var path := ProjectFile(folderPath);
    if path !in fs then Err(RuntimeError("Unable to open file: " + path))
    else if !IsObject(fs[path]) then Err(RuntimeError("Invalid JSON structure in file: " + path))
    else Ok(FromJson(fs[path].fields))
  }

  /** checkProject: false when the file cannot be opened, is not a JSON
      object, or fails the structural checks. */
  function CheckProject(fs: FileSystem, folderPath: string): (ok: bool)
    ensures ProjectFile(folderPath) !in fs ==> !ok
    ensures ProjectFile(folderPath) in fs && !IsObject(fs[ProjectFile(folderPath)]) ==> !ok
    ensures ok ==> RequiredKeys <= fs[ProjectFile(folderPath)].fields.Keys
    ensures ok ==>
              && fs[ProjectFile(folderPath)].fields["imageLocation"].JObject?
              && "lat" in fs[ProjectFile(folderPath)].fields["imageLocation"].fields
              && "lon" in fs[ProjectFile(folderPath)].fields["imageLocation"].fields
              && fs[ProjectFile(folderPath)].fields["imageLocation"].fields["lat"].JNumber?
              && fs[ProjectFile(folderPath)].fields["imageLocation"].fields["lon"].JNumber?
    ensures ProjectFile(folderPath) in fs && fs[ProjectFile(folderPath)].JObject? &&
            RequiredKeys <= fs[ProjectFile(folderPath)].fields.Keys &&
            fs[ProjectFile(folderPath)].fields["imageLocation"].JObject? &&
            "lat" in fs[ProjectFile(folderPath)].fields["imageLocation"].fields &&
            "lon" in fs[ProjectFile(folderPath)].fields["imageLocation"].fields &&
            fs[ProjectFile(folderPath)].fields["imageLocation"].fields["lat"].JNumber? &&
            fs[ProjectFile(folderPath)].fields["imageLocation"].fields["lon"].JNumber? ==>
              ok
  {
    var path := ProjectFile(folderPath);
    path in fs && IsObject(fs[path]) && IsProjectObject(fs[path].fields)
  }

  /** A folder that passes checkProject also loads, and the loaded location
      is the lat/lon stored in the file. */
  lemma CheckedProjectLoads(fs: FileSystem, folderPath: string)
    requires CheckProject(fs, folderPath)
    ensures LoadProject(fs, folderPath).Ok?
    ensures var loc := fs[ProjectFile(folderPath)].fields["imageLocation"].fields;
            LoadProject(fs, folderPath).value.imageLocation == Location(loc["lat"].n, loc["lon"].n)
  {
  }

  /** updateProject: when the file can be opened for writing, it is replaced
      by toJson(data); otherwise nothing changes and false is returned. */
  function UpdateProject(fs: FileSystem, folderPath: string, data: ProjectData, canWrite: bool): (r: (bool, FileSystem))
    ensures r.0 == canWrite
    ensures !canWrite ==> r.1 == fs
    ensures canWrite ==> r.1.Keys == fs.Keys + {ProjectFile(folderPath)}
    ensures forall p :: p in fs && p != ProjectFile(folderPath) ==> p in r.1 && r.1[p] == fs[p]
  {
    if canWrite then (true, fs[ProjectFile(folderPath) := JObject(ToJson(data))]) else (false, fs)
  }

  /** What updateProject writes, loadProject reads back, and checkProject accepts. */
  lemma UpdateThenLoad(fs: FileSystem, folderPath: string, data: ProjectData)
    ensures LoadProject(UpdateProject(fs, folderPath, data, true).1, folderPath) == Ok(data)
    ensures CheckProject(UpdateProject(fs, folderPath, data, true).1, folderPath)
  {
    FromJsonToJson(data);
    ToJsonIsProjectObject(data);
  }

  /** The scanner defaults of a new project. */
  const DefaultScannerName: string := "Default Scanner"
  const DefaultLocation: Location := Location(-0.2894057652214143, 36.081968557610146)

  /** createProject's record. `isoNow` and `exifNow` are the two clock
      readings, as ISO text and as "yyyy:MM:dd HH:mm:ss" text. */
  function NewProjectData(basePath: string, projectName: string, isoNow: string, exifNow: string): ProjectData
  {
    ProjectData(projectName, basePath, isoNow, isoNow, DefaultScannerName, 300, 1, 0, 0, exifNow, DefaultLocation)
  }

  /** createProject: write the defaults into `<basePath>/project.json`. */
  function CreateProject(fs: FileSystem, basePath: string, projectName: string, isoNow: string,
                         exifNow: string, canWrite: bool): (r: (bool, FileSystem))
    ensures r.0 == canWrite
    ensures !canWrite ==> r.1 == fs
    ensures canWrite ==> r.1.Keys == fs.Keys + {ProjectFile(basePath)}
    ensures forall p :: p in fs && p != ProjectFile(basePath) ==> p in r.1 && r.1[p] == fs[p]
  {
    UpdateProject(fs, basePath, NewProjectData(basePath, projectName, isoNow, exifNow), canWrite)
  }

  /** A created project loads back with the documented defaults: dpi 300,
      colour 1, orientation 0, no images, "Default Scanner", and a
      modification date equal to its creation date. */
  lemma CreatedProjectDefaults(fs: FileSystem, basePath: string, projectName: string, isoNow: string, exifNow: string)
    ensures var fs' := CreateProject(fs, basePath, projectName, isoNow, exifNow, true).1;
            && CheckProject(fs', basePath)
            && LoadProject(fs', basePath).Ok?
            && var d := LoadProject(fs', basePath).value;
            && d.projectName == projectName && d.projectPath == basePath
            && d.scannerDpi == 300 && d.scannerColor == 1 && d.scanOrientation == 0 && d.imagesCount == 0
            && d.scannerName == "Default Scanner"
            && d.createDate == isoNow && d.modifiedDate == d.createDate
            && d.imageDateTime == exifNow && d.imageLocation == DefaultLocation
  {
    UpdateThenLoad(fs, basePath, NewProjectData(basePath, projectName, isoNow, exifNow));
  }
}

=== FILE: quadrilateral_item.dfy ===
/** The editable quadrilateral outline of QuadrilateralItem: four draggable
    corners joined by four edges, edge i running from corner i to corner
    (i + 1) mod 4, recomputed whenever a corner moves; a right-button press
    on any corner removes the whole quadrilateral from the scene. */
module QuadrilateralItem {
  import opened Outcomes
  import opened Geometry

  /** A QLineF between two corner positions. */
  datatype Line = Line(p1: Point, p2: Point)

  /** The item: corner positions and edge lines, both indexed 0..3. */
  datatype Quad = Quad(corners: seq<Point>, lines: seq<Line>)

  /** The mouse buttons a press event can report. */
  datatype Button = LeftButton | RightButton | MiddleButton | OtherButton

  /** A default-constructed QLineF, before the first updateLines. */
  const NullLine: Line := Line(Point(0, 0), Point(0, 0))

  const TooFewOrManyPoints: string := "QuadrilateralItem requires exactly 4 points."

  /** The index of the corner after corner i around the outline. */
  function Next(i: int): int
  {
    (i + 1) % 4
  }

  /** The outline invariant: 4 corners, 4 edges, and edge i joins corner i to
      corner Next(i). */
  predicate Outlined(q: Quad)
  {
    && |q.corners| == 4
    && |q.lines| == 4
    && forall i :: 0 <= i < 4 ==> q.lines[i] == Line(q.corners[i], q.corners[Next(i)])
  }

  /** updateLines: recompute every edge from the current corner positions. */
  function UpdateLines(q: Quad): (r: Quad)
    requires |q.corners| == 4 && |q.lines| == 4
    ensures r.corners == q.corners
    ensures Outlined(r)
  {
    q.(lines := seq(4, i requires 0 <= i < 4 => Line(q.corners[i], q.corners[Next(i)])))
  }

  /** The constructor: one corner per point, in order, positioned at that
      point; then four edges laid out by updateLines. Any other number of
      points is rejected with invalid_argument. */
  function NewQuad(points: seq<Point>): (r: Result<Quad>)
    ensures r.Ok? <==> |points| == 4
    ensures r.Err? ==> r.error == InvalidArgument(TooFewOrManyPoints)
    ensures r.Ok? ==> r.value.corners == points && Outlined(r.value)
  {
    if |points| != 4 then Err(InvalidArgument(TooFewOrManyPoints))
    else Ok(UpdateLines(Quad(points, [NullLine, NullLine, NullLine, NullLine])))
  }

  /** Dragging corner k to `p`: the corner moves, then its positionChanged
      signal runs updateLines. Only the two edges that end at corner k change. */
  function MoveCorner(q: Quad, k: nat, p: Point): (r: Quad)
    requires Outlined(q) && k < 4
    ensures Outlined(r)
    ensures r.corners[k] == p
    ensures forall j :: 0 <= j < 4 && j != k ==> r.corners[j] == q.corners[j]
    ensures forall i :: 0 <= i < 4 && i != k && i != (k + 3) % 4 ==> r.lines[i] == q.lines[i]
    ensures r.lines[k].p1 == p && r.lines[(k + 3) % 4].p2 == p
  {
    UpdateLines(q.(corners := q.corners[k := p]))
  }

  /** The outline is closed: each edge ends where the next one starts. */
  lemma OutlineClosed(q: Quad)
    requires Outlined(q)
    ensures forall i :: 0 <= i < 4 ==> q.lines[i].p2 == q.lines[Next(i)].p1
  {
  }

  /** Edge i is built from corners i and Next(i), so it ends at corner k
      exactly when one of those two indices is k. */
  predicate EdgeTouches(i: int, k: int)
  {
    i == k || Next(i) == k
  }

  /** In an outlined quad every corner is an endpoint of exactly two edges:
      edge k starts at corner k, edge (k + 3) mod 4 ends there, and no other
      edge is built from corner k. Dragging one corner therefore moves
      exactly two edges of the outline. */
  lemma EachCornerEndsTwoEdges(q: Quad, k: nat)
    requires Outlined(q) && k < 4
    ensures q.lines[k].p1 == q.corners[k]
    ensures q.lines[(k + 3) % 4].p2 == q.corners[k]
    ensures forall i :: 0 <= i < 4 ==> (EdgeTouches(i, k) <==> i == k || i == (k + 3) % 4)
    ensures (set i | 0 <= i < 4 && EdgeTouches(i, k)) == {k, (k + 3) % 4}
    ensures |set i | 0 <= i < 4 && EdgeTouches(i, k)| == 2
  {
    assert Next((k + 3) % 4) == k;
    assert k != (k + 3) % 4;
    assert forall i :: 0 <= i < 4 && EdgeTouches(i, k) ==> i == k || i == (k + 3) % 4;
  }

  /** updateLines depends only on the corner positions, so running it twice
      is the same as running it once. */
  lemma UpdateLinesIdempotent(q: Quad)
    requires |q.corners| == 4 && |q.lines| == 4
    ensures UpdateLines(UpdateLines(q)) == UpdateLines(q)
  {
  }

  /** A scene's quadrilaterals, in the order they were added. */
  type Scene = seq<Quad>

  /** A press of `button` on corner k of quadrilateral qi: the right button
      emits deletePressed, which deletes the whole quadrilateral; any other
      button leaves the scene as it is. */
  function PressCorner(scene: Scene, qi: nat, k: nat, button: Button): (r: Scene)
    requires qi < |scene| && k < 4
    ensures button != RightButton ==> r == scene
    ensures button == RightButton ==>
              && |r| == |scene| - 1
              && (forall j :: 0 <= j < qi ==> r[j] == scene[j])
              && (forall j :: qi < j < |scene| ==> r[j - 1] == scene[j])
  {
    if button == RightButton then scene[..qi] + scene[qi + 1..] else scene
  }
}

=== FILE: scan_processor.dfy ===
/** Photo-region detection of ScanProcessor::detectAndCropPhotos.
    The OpenCV stages that produce the contour list (grayscale conversion,
    Otsu threshold, findContours) are represented by the `contours` argument
    together with the image-type condition under which they succeed,
    approxPolyDP by the function argument `approx`, and cv::polylines by the
    function argument `draw`. */
module ScanProcessor {
  import opened Outcomes
  import opened Seqs
  import opened Geometry
  import opened Images

  /** One detected photo: its 4 approximated corners, their bounding box and
      the pixels of that box. */
  datatype DetectedRegion = DetectedRegion(corners: Polygon, boundingBox: Rect, cropped: Mat)

  /** The input with outlines drawn on it, and the detected regions. */
  datatype ScanResult = ScanResult(annotated: Mat, regions: seq<DetectedRegion>)

  /** Twice the minimum photo area of 10000 square pixels. */
  const TwiceMinArea: nat := 20000

  /** The region filter: an approximation with exactly 4 vertices whose
      area is not below the minimum (an area of exactly 10000 is kept). */
  predicate IsPhotoQuad(a: Polygon)
  {
    |a| == 4 && TwiceArea(a) >= TwiceMinArea
  }

  /** The approximations that pass `keep`, in contour order. */
  function Kept(keep: Polygon -> bool, approx: Polygon -> Polygon, contours: seq<Polygon>): seq<Polygon>
  {
    Filter(keep, Map(approx, contours))
  }

  /** The approximations that become regions, in contour order. */
  function PhotoQuads(approx: Polygon -> Polygon, contours: seq<Polygon>): seq<Polygon>
  {
    Kept(IsPhotoQuad, approx, contours)
  }

  /** The image types whose grayscale copy is 8-bit single-channel, the only
      type findContours accepts: 8-bit images with one channel (cloned) or
      three channels (converted from BGR). For any other type an OpenCV call
      on the way fails its assertion, findContours at the latest, since the
      thresholded image keeps the grayscale copy's type. */
  predicate ContourReady(img: Mat)
  {
    img.depth == U8 && (img.channels == 1 || img.channels == 3)
  }

  /** Every quad's bounding box lies inside the image, so cropping succeeds. */
  predicate AllInside(img: Mat, quads: seq<Polygon>)
  {
    forall k :: 0 <= k < |quads| ==> |quads[k]| > 0 && RoiInside(img, BoundingRect(quads[k]))
  }

  /** The region recorded for one accepted quad. */
  function RegionFor(img: Mat, q: Polygon): (reg: DetectedRegion)
    requires Valid(img) && |q| > 0 && RoiInside(img, BoundingRect(q))
    ensures reg.corners == q && reg.boundingBox == BoundingRect(q)
    ensures Valid(reg.cropped)
    ensures reg.cropped.rows == reg.boundingBox.height && reg.cropped.cols == reg.boundingBox.width
    ensures forall i, j :: 0 <= i < reg.cropped.rows && 0 <= j < reg.cropped.cols ==>
              reg.cropped.data[i][j] == img.data[reg.boundingBox.y + i][reg.boundingBox.x + j]
  {
    var box := BoundingRect(q);
    DetectedRegion(q, box, Crop(img, box))
  }

  /** The annotated image: `base` with the outlines of `quads` drawn one
      after another, first quad first. */
  function DrawOutlines(draw: (Mat, Polygon) -> Mat, base: Mat, quads: seq<Polygon>): Mat
    decreases |quads|
  {
    if |quads| == 0 then base
    else DrawOutlines(draw, draw(base, quads[0]), quads[1..])
  }

  /** detectAndCropPhotos over the contours of the thresholded image. */
  method DetectAndCropPhotos(img: Mat, contours: seq<Polygon>, approx: Polygon -> Polygon,
                             draw: (Mat, Polygon) -> Mat)
    returns (r: Result<ScanResult>)
    requires Valid(img)
    ensures IsEmpty(img) ==> r == Ok(ScanResult(EmptyMat, []))
    ensures !IsEmpty(img) && !ContourReady(img) ==> r.Err? && r.error.CvError?
    ensures !IsEmpty(img) ==>
              (r.Ok? <==> ContourReady(img) && AllInside(img, PhotoQuads(approx, contours)))
    ensures r.Err? ==> r.error.CvError?
    ensures !IsEmpty(img) && r.Ok? ==>
              && |r.value.regions| == |PhotoQuads(approx, contours)|
              && r.value.annotated == DrawOutlines(draw, img, PhotoQuads(approx, contours))
    ensures !IsEmpty(img) && r.Ok? ==>
              forall k :: 0 <= k < |r.value.regions| ==>
                && r.value.regions[k].corners == PhotoQuads(approx, contours)[k]
                && |r.value.regions[k].corners| == 4
                && TwiceArea(r.value.regions[k].corners) >= TwiceMinArea
                && r.value.regions[k].boundingBox == BoundingRect(r.value.regions[k].corners)
                && r.value.regions[k].cropped == Crop(img, r.value.regions[k].boundingBox)
  {
    if IsEmpty(img) {
      return Ok(ScanResult(EmptyMat, []));
    }
    if !ContourReady(img) {
      return Err(CvError("Assertion failed: unsupported image type for threshold or findContours"));
    }
    KeptPass(IsPhotoQuad, approx, contours);
    r := CollectRegions(img, PhotoQuads(approx, contours), draw);
    if r.Ok? {
      RegionsDescribeQuads(img, PhotoQuads(approx, contours), r.value.regions);
    }
  }

  /** The loop over the accepted approximations of a non-empty image, in
      contour order: each one's bounding box is cropped and its outline
      drawn, and the first whose bounding box leaves the image makes the crop
      fail. Because `approx` and the region filter are pure, filtering the
      contours first and then visiting the survivors is the same computation
      as testing each contour inside one loop. */
  method CollectRegions(img: Mat, quads: seq<Polygon>, draw: (Mat, Polygon) -> Mat)
    returns (r: Result<ScanResult>)
    requires Valid(img)
    requires forall k :: 0 <= k < |quads| ==> |quads[k]| > 0
    ensures r.Ok? <==> AllInside(img, quads)
    ensures r.Err? ==> r.error.CvError?
    ensures r.Ok? ==> RegionsOf(img, quads, r.value.regions)
    ensures r.Ok? ==> r.value.annotated == DrawOutlines(draw, img, quads)
  {
    var annotated := img;
    var regions: seq<DetectedRegion> := [];
    var i := 0;
    while i < |quads|
      invariant 0 <= i <= |quads|
      invariant RegionsOf(img, quads[..i], regions)
      invariant annotated == DrawOutlines(draw, img, quads[..i])
    {
      var a := quads[i];
      var box := BoundingRect(a);
      if !RoiInside(img, box) {
        return Err(CvError("Assertion failed: region of interest outside the image"));
      }
      TakeSnoc(quads, i);
      regions, annotated := AddRegion(img, draw, quads[..i], regions, annotated, a);
      i := i + 1;
    }
    TakeAll(quads);
    return Ok(ScanResult(annotated, regions));
  }

  /** Every approximation the filter keeps passes it. */
  lemma KeptPass(keep: Polygon -> bool, approx: Polygon -> Polygon, contours: seq<Polygon>)
    ensures forall k :: 0 <= k < |Kept(keep, approx, contours)| ==> keep(Kept(keep, approx, contours)[k])
  {
  }

  /** Records the region of one accepted quad and draws its outline. */
  method AddRegion(img: Mat, draw: (Mat, Polygon) -> Mat, ghost quads: seq<Polygon>,
                   regions: seq<DetectedRegion>, annotated: Mat, q: Polygon)
    returns (regions': seq<DetectedRegion>, annotated': Mat)
    requires RegionsOf(img, quads, regions) && annotated == DrawOutlines(draw, img, quads)
    requires |q| > 0 && RoiInside(img, BoundingRect(q))
    ensures RegionsOf(img, quads + [q], regions')
    ensures annotated' == DrawOutlines(draw, img, quads + [q])
  {
    DrawOutlinesSnoc(draw, img, quads, q);
    RegionsOfSnoc(img, quads, regions, q);
    annotated' := draw(annotated, q);
    regions' := regions + [RegionFor(img, q)];
  }

  /** Drawing one more outline on the annotated image extends the drawing. */
  lemma {:induction false} DrawOutlinesSnoc(draw: (Mat, Polygon) -> Mat, base: Mat, quads: seq<Polygon>, q: Polygon)
    ensures DrawOutlines(draw, base, quads + [q]) == draw(DrawOutlines(draw, base, quads), q)
    decreases |quads|
  {
    if |quads| == 0 {
      assert ([] + [q])[1..] == [];
    } else {
      assert (quads + [q])[0] == quads[0];
      assert (quads + [q])[1..] == quads[1..] + [q];
      DrawOutlinesSnoc(draw, draw(base, quads[0]), quads[1..], q);
    }
  }

  /** `regions` are the regions recorded for `quads`, one each, in order. */
  ghost predicate RegionsOf(img: Mat, quads: seq<Polygon>, regions: seq<DetectedRegion>)
  {
    && Valid(img) && AllInside(img, quads)
    && |regions| == |quads|
    && forall k :: 0 <= k < |regions| ==> regions[k] == RegionFor(img, quads[k])
  }

  lemma RegionsOfSnoc(img: Mat, quads: seq<Polygon>, regions: seq<DetectedRegion>, q: Polygon)
    requires RegionsOf(img, quads, regions)
    requires |q| > 0 && RoiInside(img, BoundingRect(q))
    ensures RegionsOf(img, quads + [q], regions + [RegionFor(img, q)])
  {
    var quads', regions' := quads + [q], regions + [RegionFor(img, q)];
    forall k | 0 <= k < |quads'|
      ensures |quads'[k]| > 0 && RoiInside(img, BoundingRect(quads'[k]))
    {
      if k < |quads| {
        assert quads'[k] == quads[k];
      }
    }
    forall k | 0 <= k < |regions'|
      ensures regions'[k] == RegionFor(img, quads'[k])
    {
      if k < |quads| {
        assert quads'[k] == quads[k] && regions'[k] == regions[k];
      }
    }
  }

  /** What a list of regions built by RegionFor says about each region. */
  lemma RegionsDescribeQuads(img: Mat, quads: seq<Polygon>, regions: seq<DetectedRegion>)
    requires RegionsOf(img, quads, regions)
    requires forall k :: 0 <= k < |quads| ==> IsPhotoQuad(quads[k])
    ensures forall k :: 0 <= k < |regions| ==>
              && regions[k].corners == quads[k]
              && |regions[k].corners| == 4
              && TwiceArea(regions[k].corners) >= TwiceMinArea
              && regions[k].boundingBox == BoundingRect(regions[k].corners)
              && regions[k].cropped == Crop(img, regions[k].boundingBox)
  {
  }

  /** Regions follow contours: the photo quads are the approximations of a
      strictly increasing selection of contours (so at most one region per
      contour, in contour order), and a contour is selected exactly when its
      approximation has 4 vertices and area at least 10000. */
  lemma PhotoQuadsFollowContours(approx: Polygon -> Polygon, contours: seq<Polygon>) returns (idx: seq<nat>)
    ensures |idx| == |PhotoQuads(approx, contours)|
    ensures forall k :: 0 <= k < |idx| ==>
              idx[k] < |contours| && PhotoQuads(approx, contours)[k] == approx(contours[idx[k]])
    ensures forall k, l :: 0 <= k < l < |idx| ==> idx[k] < idx[l]
    ensures forall i :: 0 <= i < |contours| ==> (IsPhotoQuad(approx(contours[i])) <==> i in idx)
  {
    var m := Map(approx, contours);
    idx := FilterSelects(IsPhotoQuad, m);
    forall i | 0 <= i < |contours|
      ensures IsPhotoQuad(approx(contours[i])) <==> i in idx
    {
      assert m[i] == approx(contours[i]);
    }
  }

  /** The candidate test: an area strictly above 10000. */
  predicate IsCandidate(c: Polygon)
  {
    TwiceArea(c) > TwiceMinArea
  }

  /** The candidate pre-filter over the contour list. */
  function CandidateContours(contours: seq<Polygon>): seq<Polygon>
  {
    Filter(IsCandidate, contours)
  }

  /** The docs test: exactly 4 vertices. */
  predicate IsDoc(a: Polygon)
  {
    |a| == 4
  }

  /** The `docs` list: the 4-vertex approximations of the candidates. */
  function Docs(candidates: seq<Polygon>, approxFine: Polygon -> Polygon): seq<Polygon>
  {
    Filter(IsDoc, Map(approxFine, candidates))
  }

  /** The candidate pre-filter keeps exactly the contours of area above
      10000, in order; the docs list keeps exactly the approximations with 4
      vertices, in candidate order. */
  lemma CandidatesAndDocsSelect(contours: seq<Polygon>, approxFine: Polygon -> Polygon)
    returns (cidx: seq<nat>, didx: seq<nat>)
    ensures IsSelection(CandidateContours(contours), contours, cidx)
    ensures forall i :: 0 <= i < |contours| ==> (IsCandidate(contours[i]) <==> i in cidx)
    ensures IsSelection(Docs(CandidateContours(contours), approxFine), Map(approxFine, CandidateContours(contours)), didx)
    ensures forall j :: 0 <= j < |CandidateContours(contours)| ==>
              (IsDoc(approxFine(CandidateContours(contours)[j])) <==> j in didx)
  {
    cidx := FilterSelects(IsCandidate, contours);
    var cands := CandidateContours(contours);
    var m := Map(approxFine, cands);
    didx := FilterSelects(IsDoc, m);
    forall j | 0 <= j < |cands|
      ensures IsDoc(approxFine(cands[j])) <==> j in didx
    {
      assert m[j] == approxFine(cands[j]);
    }
  }

  /** The two area tests disagree at the boundary: a 4-vertex contour of
      area exactly 10000 that approxPolyDP returns unchanged is dropped by
      the candidate pre-filter but accepted by the region filter. */
  lemma AreaBoundaryDiffers(sq: Polygon, approx: Polygon -> Polygon)
    requires |sq| == 4 && TwiceArea(sq) == TwiceMinArea && approx(sq) == sq
    ensures CandidateContours([sq]) == [] && PhotoQuads(approx, [sq]) == [sq]
  {
    assert [sq][1..] == [];
    assert Map(approx, [sq]) == [sq];
  }

  /** Such contours exist: the axis-aligned 100 x 100 square has area
      exactly 10000. */
  lemma SquareOnBoundary()
    ensures var sq := [Point(0, 0), Point(100, 0), Point(100, 100), Point(0, 100)];
            |sq| == 4 && TwiceArea(sq) == TwiceMinArea
  {
    var sq := [Point(0, 0), Point(100, 0), Point(100, 100), Point(0, 100)];
    QuadShoelace(sq);
  }

}

=== FILE: seqs.dfy ===
/** Sequence helpers shared by the model: order-preserving filtering, mapping
    and first-match search, with the facts the rest of the model relies on. */
module Seqs {
  import opened Outcomes

  function Map<T, U>(f: T -> U, s: seq<T>): (r: seq<U>)
    ensures |r| == |s|
    ensures forall i :: 0 <= i < |s| ==> r[i] == f(s[i])
  {
    seq(|s|, i requires 0 <= i < |s| => f(s[i]))
  }

  /** The elements of `s` that satisfy `p`, in their original order. */
  function Filter<T>(p: T -> bool, s: seq<T>): (r: seq<T>)
    ensures |r| <= |s|
    ensures forall i :: 0 <= i < |r| ==> p(r[i])
    ensures forall i :: 0 <= i < |r| ==> r[i] in s
    ensures forall i :: 0 <= i < |s| && p(s[i]) ==> s[i] in r
  {
    if |s| == 0 then []
    else if p(s[0]) then [s[0]] + Filter(p, s[1..])
    else Filter(p, s[1..])
  }

  /** `idx` lists positions of `s` in strictly increasing order and `r` is the
      sequence of the elements at those positions. */
  ghost predicate IsSelection<T>(r: seq<T>, s: seq<T>, idx: seq<nat>)
  {
    && |idx| == |r|
    && (forall k :: 0 <= k < |idx| ==> idx[k] < |s| && r[k] == s[idx[k]])
    && (forall k, l :: 0 <= k < l < |idx| ==> idx[k] < idx[l])
  }

  /** Shifts every position of `idx` one place to the right. */
  function Shift(idx: seq<nat>): (r: seq<nat>)
    ensures |r| == |idx|
    ensures forall k :: 0 <= k < |idx| ==> r[k] == idx[k] + 1
  {
    seq(|idx|, k requires 0 <= k < |idx| => idx[k] + 1)
  }

  lemma ShiftSelection<T>(r: seq<T>, s: seq<T>, idx: seq<nat>)
    requires |s| > 0
    requires IsSelection(r, s[1..], idx)
    ensures IsSelection(r, s, Shift(idx))
  {
    forall k | 0 <= k < |idx|
      ensures Shift(idx)[k] < |s| && r[k] == s[Shift(idx)[k]]
    {
      assert s[1..][idx[k]] == s[idx[k] + 1];
    }
  }

  lemma ShiftMembership(idx: seq<nat>, i: nat)
    requires i >= 1
    ensures i in Shift(idx) <==> (i - 1) in idx
  {
    if i in Shift(idx) {
      var k :| 0 <= k < |idx| && Shift(idx)[k] == i;
    }
    if (i - 1) in idx {
      var k :| 0 <= k < |idx| && idx[k] == i - 1;
      assert Shift(idx)[k] == i;
    }
  }

  lemma PrependSelection<T>(r: seq<T>, s: seq<T>, idx: seq<nat>)
    requires |s| > 0
    requires IsSelection(r, s, idx)
    requires forall k :: 0 <= k < |idx| ==> idx[k] >= 1
    ensures IsSelection([s[0]] + r, s, [0] + idx)
  {
    var r', idx' := [s[0]] + r, [0] + idx;
    forall k | 1 <= k < |idx'|
      ensures idx'[k] < |s| && r'[k] == s[idx'[k]]
    {
      assert idx'[k] == idx[k - 1] && r'[k] == r[k - 1];
    }
    forall k, l | 0 <= k < l < |idx'|
      ensures idx'[k] < idx'[l]
    {
      assert idx'[l] == idx[l - 1];
      if k > 0 {
        assert idx'[k] == idx[k - 1];
      }
    }
  }

  /** Filtering picks every position whose element satisfies `p`, and no
      other, keeping the original order: each element of `s` contributes at
      most once and the survivors are not reordered. */
  lemma {:induction false} FilterSelects<T>(p: T -> bool, s: seq<T>) returns (idx: seq<nat>)
    ensures IsSelection(Filter(p, s), s, idx)
    ensures forall i :: 0 <= i < |s| ==> (p(s[i]) <==> i in idx)
  {
    if |s| == 0 {
      idx := [];
      return;
    }
    var rest := FilterSelects(p, s[1..]);
    ShiftSelection(Filter(p, s[1..]), s, rest);
    var shifted := Shift(rest);
    forall i | 1 <= i < |s|
      ensures p(s[i]) <==> i in shifted
    {
      assert s[i] == s[1..][i - 1];
      ShiftMembership(rest, i);
    }
    if p(s[0]) {
      idx := [0] + shifted;
      assert Filter(p, s) == [s[0]] + Filter(p, s[1..]);
      PrependSelection(Filter(p, s[1..]), s, shifted);
    } else {
      idx := shifted;
    }
  }

  /** The position of the first element of `s` that satisfies `p`. */
  function FirstIndex<T>(p: T -> bool, s: seq<T>): (r: Option<nat>)
    ensures r.Some? ==> r.value < |s| && p(s[r.value])
    ensures r.Some? ==> forall j :: 0 <= j < r.value ==> !p(s[j])
    ensures r.None? <==> forall j :: 0 <= j < |s| ==> !p(s[j])
  {
    if |s| == 0 then None
    else if p(s[0]) then Some(0)
    else match FirstIndex(p, s[1..])
      case None => None
      case Some(k) => Some(k + 1)
  }

  lemma TakeSnoc<T>(s: seq<T>, i: nat)
    requires i < |s|
    ensures s[..i + 1] == s[..i] + [s[i]]
  {
  }

  lemma TakeAll<T>(s: seq<T>)
    ensures s[..|s|] == s
  {
  }
}

=== FILE: wia_scanner.dfy ===
/** The decisions inside WiaScanner's COM code. Each COM call is replaced by
    its HRESULT (an int32, failed exactly when negative) or by the sequence
    an enumerator yields, and a device's property storage is a list of
    (name, property id, value) entries. */
module WiaScanner {
  import opened Outcomes
  import opened Integers
  import opened Seqs

  /** FAILED(hr) / SUCCEEDED(hr). */
  predicate Failed(hr: int32) { hr < 0 }

  /** The PROPVARIANT types the code tells apart: VT_BSTR, VT_I4, and the rest. */
  datatype PropVariant = Bstr(text: string) | I4(long: int32) | OtherType(vt: nat)

  predicate IsNul(c: char)
  {
    c == '\0'
  }

  /** The text a C-string reader sees in a wide string: everything before
      the first NUL character, or the whole string when it has none. The
      code reads BSTR and LPWSTR values through such readers: it builds
      std::wstring from the pointer, compares with operator== and _wcsicmp,
      and copies with SysAllocString(value.c_str()). */
  function UpToNul(s: string): (r: string)
    ensures r <= s
    ensures forall k :: 0 <= k < |r| ==> r[k] != '\0'
    ensures |r| < |s| ==> s[|r|] == '\0'
    ensures (forall k :: 0 <= k < |s| ==> s[k] != '\0') ==> r == s
  {
    match FirstIndex(IsNul, s)
    case None => s
    case Some(k) => s[..k]
  }

  /** Cutting twice is cutting once. */
  lemma UpToNulIdempotent(s: string)
    ensures UpToNul(UpToNul(s)) == UpToNul(s)
  {
  }

  /** A BSTR holding "5", NUL, "x" reads as "5". */
  lemma EmbeddedNulIsCut()
    ensures UpToNul("5\0x") == "5"
    ensures PropVariantToString(Bstr("5\0x")) == "5"
  {
    assert FirstIndex(IsNul, "5\0x") == Some(1) by {
      assert "5\0x"[1..][0] == '\0';
    }
  }

  /** PropVariantToString: a BSTR's text up to its first NUL, an I4 as
      decimal text, else "". */
  function PropVariantToString(v: PropVariant): (s: string)
    ensures v.Bstr? ==> s == UpToNul(v.text)
    ensures v.I4? ==> s == DecimalText(v.long as int) && ParseDecimal(s) == Some(v.long as int)
    ensures v.OtherType? ==> s == ""
  {
    match v
    case Bstr(text) => UpToNul(text)
    case I4(long) => DecimalRoundTrip(long as int); DecimalText(long as int)
    case OtherType(_) => ""
  }

  // ---------------------------------------------------------------- storage

  /** One entry of an IWiaPropertyStorage enumeration. */
  datatype Property = Property(name: string, propid: nat, value: PropVariant)

  type Storage = seq<Property>

  /** Property ids from wiadef.h. */
  const WiaIpaDatatype: nat := 4103
  const WiaIpsXres: nat := 6147

  /** A storage in which no property id appears twice. */
  predicate DistinctIds(st: Storage)
  {
    forall i, j :: 0 <= i < j < |st| ==> st[i].propid != st[j].propid
  }

  /** WriteMultiple of one value to one property id. */
  function Write(st: Storage, propid: nat, v: PropVariant): (st': Storage)
    ensures |st'| == |st|
    ensures forall k :: 0 <= k < |st| ==>
              st'[k].name == st[k].name && st'[k].propid == st[k].propid
              && st'[k].value == (if st[k].propid == propid then v else st[k].value)
  {
    seq(|st|, k requires 0 <= k < |st| => if st[k].propid == propid then st[k].(value := v) else st[k])
  }

  function HasId(propid: nat): Property -> bool
  {
    (p: Property) => p.propid == propid
  }

  /** ReadMultiple of one property id. */
  function Read(st: Storage, propid: nat): (r: Option<PropVariant>)
    ensures r.None? <==> forall k :: 0 <= k < |st| ==> st[k].propid != propid
    ensures r.Some? ==> exists k :: 0 <= k < |st| && st[k].propid == propid && st[k].value == r.value
  {
    match FirstIndex(HasId(propid), st)
    case None => None
    case Some(k) => Some(st[k].value)
  }

  /** After a write of an existing id, reading that id gives the value written. */
  lemma ReadAfterWrite(st: Storage, propid: nat, v: PropVariant)
    requires exists k :: 0 <= k < |st| && st[k].propid == propid
    ensures Read(Write(st, propid, v), propid) == Some(v)
  {
  }

  // ----------------------------------------------------------- colour mode

  /** WIA_DATA_* values of WIA_IPA_DATATYPE. */
  const WiaDataThreshold: int32 := 0
  const WiaDataGrayscale: int32 := 2
  const WiaDataColor: int32 := 3

  /** setColorOption's mapping of the user's choice 1, 2, 3. */
  function ColorOptionValue(option: int): (r: Option<int32>)
    ensures r.Some? <==> 1 <= option <= 3
    ensures option == 1 ==> r == Some(WiaDataColor)
    ensures option == 2 ==> r == Some(WiaDataGrayscale)
    ensures option == 3 ==> r == Some(WiaDataThreshold)
  {
    if option == 1 then Some(WiaDataColor)
    else if option == 2 then Some(WiaDataGrayscale)
    else if option == 3 then Some(WiaDataThreshold)
    else None
  }

  /** getColorOptions' name for a WIA_IPA_DATATYPE value. */
  function ColorLabel(value: int32): (caption: string)
    ensures value == WiaDataColor <==> caption == "Color"
    ensures value == WiaDataGrayscale <==> caption == "Grayscale"
    ensures value == WiaDataThreshold <==> caption == "Black and White"
    ensures value !in {WiaDataColor, WiaDataGrayscale, WiaDataThreshold} <==> caption == "Unknown"
  {
    if value == WiaDataColor then "Color"
    else if value == WiaDataGrayscale then "Grayscale"
    else if value == WiaDataThreshold then "Black and White"
    else "Unknown"
  }

  /** The three choices get three different, known labels: 1 is "Color",
      2 "Grayscale", 3 "Black and White", and none is "Unknown". */
  lemma ColorOptionLabels(option: int)
    requires 1 <= option <= 3
    ensures ColorLabel(ColorOptionValue(option).value) == ["Color", "Grayscale", "Black and White"][option - 1]
    ensures ColorLabel(ColorOptionValue(option).value) != "Unknown"
  {
  }

  /** Different choices write different values. */
  lemma ColorOptionInjective(a: int, b: int)
    requires ColorOptionValue(a).Some? && ColorOptionValue(a) == ColorOptionValue(b)
    ensures a == b
  {
  }

  /** setColorOption. An invalid choice is rejected before the device is
      looked at; then a missing device, a failed QueryInterface and a failed
      WriteMultiple each throw; otherwise the storage holds the new value. */
  function SetColorOption(device: Option<Storage>, option: int, queryHr: int32, writeHr: int32): (r: Result<Storage>)
    ensures ColorOptionValue(option).None? ==> r == Err(InvalidArgument("Invalid color option provided."))
    ensures ColorOptionValue(option).Some? && device.None? ==> r == Err(RuntimeError("Device is not initialized."))
    ensures ColorOptionValue(option).Some? && device.Some? && Failed(queryHr) ==>
              r == Err(RuntimeError("Failed to get property storage. HRESULT: " + DecimalText(queryHr as int)))
    ensures ColorOptionValue(option).Some? && device.Some? && !Failed(queryHr) && Failed(writeHr) ==>
              r == Err(RuntimeError("Failed to set color option. HRESULT: " + DecimalText(writeHr as int)))
    ensures r.Ok? <==> ColorOptionValue(option).Some? && device.Some? && !Failed(queryHr) && !Failed(writeHr)
    ensures r.Ok? ==> r.value == Write(device.value, WiaIpaDatatype, I4(ColorOptionValue(option).value))
  {
    match ColorOptionValue(option)
    case None => Err(InvalidArgument("Invalid color option provided."))
    case Some(value) =>
      if device.None? then Err(RuntimeError("Device is not initialized."))
      else if Failed(queryHr) then Err(RuntimeError("Failed to get property storage. HRESULT: " + DecimalText(queryHr as int)))
      else if Failed(writeHr) then Err(RuntimeError("Failed to set color option. HRESULT: " + DecimalText(writeHr as int)))
      else Ok(Write(device.value, WiaIpaDatatype, I4(value)))
  }

  /** The label getColorOptions reports: present only when the read succeeds
      and yields an I4. */
  function CurrentColorLabel(device: Option<Storage>, queryHr: int32, readHr: int32): (caption: Option<string>)
    ensures caption.Some? <==>
              && device.Some? && !Failed(queryHr) && !Failed(readHr)
              && Read(device.value, WiaIpaDatatype).Some?
              && Read(device.value, WiaIpaDatatype).value.I4?
    ensures caption.Some? ==> caption.value == ColorLabel(Read(device.value, WiaIpaDatatype).value.long)
  {
    if device.None? || Failed(queryHr) || Failed(readHr) then None
    else match Read(device.value, WiaIpaDatatype)
      case Some(I4(v)) => Some(ColorLabel(v))
      case _ => None
  }

  /** Setting colour option 1, 2 or 3 on a device that has the data-type
      property, then asking for the current option, reports the chosen label. */
  lemma SetThenReportColor(st: Storage, option: int, hr: int32)
    requires 1 <= option <= 3 && !Failed(hr)
    requires exists k :: 0 <= k < |st| && st[k].propid == WiaIpaDatatype
    ensures SetColorOption(Some(st), option, hr, hr).Ok?
    ensures CurrentColorLabel(Some(SetColorOption(Some(st), option, hr, hr).value), hr, hr)
            == Some(["Color", "Grayscale", "Black and White"][option - 1])
  {
    ReadAfterWrite(st, WiaIpaDatatype, I4(ColorOptionValue(option).value));
    ColorOptionLabels(option);
  }

  /** setDpi: the horizontal resolution is written as an I4. */
  function SetDpi(device: Option<Storage>, dpi: int32, queryHr: int32, writeHr: int32): (r: Result<Storage>)
    ensures device.None? ==> r == Err(RuntimeError("Device is not initialized."))
    ensures device.Some? && Failed(queryHr) ==>
              r == Err(RuntimeError("Failed to get property storage. HRESULT: " + DecimalText(queryHr as int)))
    ensures device.Some? && !Failed(queryHr) && Failed(writeHr) ==>
              r == Err(RuntimeError("Failed to set DPI. HRESULT: " + DecimalText(writeHr as int)))
    ensures r.Ok? <==> device.Some? && !Failed(queryHr) && !Failed(writeHr)
    ensures r.Ok? ==> |r.value| == |device.value|
    ensures r.Ok? ==> (forall k :: 0 <= k < |device.value| && device.value[k].propid == WiaIpsXres ==>
                                     r.value[k].value == I4(dpi))
    ensures r.Ok? ==> (forall k :: 0 <= k < |device.value| && device.value[k].propid != WiaIpsXres ==>
                                     r.value[k] == device.value[k])
  {
    if device.None? then Err(RuntimeError("Device is not initialized."))
    else if Failed(queryHr) then Err(RuntimeError("Failed to get property storage. HRESULT: " + DecimalText(queryHr as int)))
    else if Failed(writeHr) then Err(RuntimeError("Failed to set DPI. HRESULT: " + DecimalText(writeHr as int)))
    else Ok(Write(device.value, WiaIpsXres, I4(dpi)))
  }

  // ------------------------------------------------------------ resolution

  /** A resolution attribute split into its 16-bit halves. */
  datatype ResolutionRange = ResolutionRange(min: nat, max: nat, step: nat)

  const Word: nat := 0x1_0000

  /** The PROPVARIANT's `ulVal`: the same 32 bits as `lVal`, read unsigned. */
  function UlVal(long: int32): (u: nat)
    ensures u < Word * Word
    ensures long >= 0 ==> u == long as int
    ensures long < 0 ==> u == long as int + Word * Word
  {
    if long < 0 then long as int + 0x1_0000_0000 else long as int
  }

  /** LOWORD, HIWORD, and the shift getDpiConstraints uses as the step. */
  function SplitResolution(u: nat): (r: ResolutionRange)
    requires u < Word * Word
    ensures r.min < Word && r.max < Word
    ensures r.min + r.max * Word == u
  {
    ResolutionRange(u % Word, u / Word % Word, u / Word)
  }

  /** The "step" is not a step at all: for a 32-bit value it is always the maximum. */
  lemma StepIsMax(u: nat)
    requires u < Word * Word
    ensures SplitResolution(u).step == SplitResolution(u).max
  {
    assert u / Word < Word;
  }

  /** getDpiConstraints for one of the two resolution properties: a range
      only when the attribute read succeeds and yields an I4. */
  function ResolutionAttribute(hr: int32, attr: PropVariant): (r: Option<ResolutionRange>)
    ensures r.Some? <==> !Failed(hr) && attr.I4?
    ensures r.Some? ==> r.value.min + r.value.max * Word == UlVal(attr.long)
  {
    if !Failed(hr) && attr.I4? then Some(SplitResolution(UlVal(attr.long))) else None
  }

  // --------------------------------------------------------- named property

  /** `propertyName == statProp.lpwstrName`: the whole requested name
      against the stored name up to its first NUL. */
  function NameIs(name: string): Property -> bool
  {
    (p: Property) => UpToNul(p.name) == name
  }

  /** setScannerProperty: the value is written, as a BSTR, to the first
      enumerated property whose name matches, and the search stops there. */
  function SetScannerProperty(device: Option<Storage>, name: string, value: string,
                              queryHr: int32, enumHr: int32, writeHr: int32): (r: Result<Storage>)
    ensures device.None? ==> r == Err(RuntimeError("No scanner selected"))
    ensures device.Some? && Failed(queryHr) ==> r == Err(RuntimeError("Failed to query property storage"))
    ensures device.Some? && !Failed(queryHr) && Failed(enumHr) ==> r == Err(RuntimeError("Failed to enumerate properties"))
    ensures device.Some? && !Failed(queryHr) && !Failed(enumHr) ==>
              ((forall k :: 0 <= k < |device.value| ==> UpToNul(device.value[k].name) != name) <==>
               r == Err(RuntimeError("Property not found")))
    ensures device.Some? && !Failed(queryHr) && !Failed(enumHr) && Failed(writeHr) &&
            (exists k :: 0 <= k < |device.value| && UpToNul(device.value[k].name) == name) ==>
              r == Err(RuntimeError("Failed to set property"))
    ensures r.Ok? <==>
              && device.Some? && !Failed(queryHr) && !Failed(enumHr) && !Failed(writeHr)
              && (exists k :: 0 <= k < |device.value| && UpToNul(device.value[k].name) == name)
    ensures r.Ok? ==>
              && FirstIndex(NameIs(name), device.value).Some?
              && r.value == Write(device.value, device.value[FirstIndex(NameIs(name), device.value).value].propid,
                                  Bstr(UpToNul(value)))
    ensures r.Err? ==> r.error.RuntimeError?
  {
    if device.None? then Err(RuntimeError("No scanner selected"))
    else if Failed(queryHr) then Err(RuntimeError("Failed to query property storage"))
    else if Failed(enumHr) then Err(RuntimeError("Failed to enumerate properties"))
    else match FirstIndex(NameIs(name), device.value)
      case None => Err(RuntimeError("Property not found"))
      case Some(k) =>
        if Failed(writeHr) then Err(RuntimeError("Failed to set property"))
        else Ok(Write(device.value, device.value[k].propid, Bstr(UpToNul(value))))
  }

  /** On success the written property is the first one with that name: it
      now holds the value up to its first NUL, as a BSTR, and with distinct ids every other entry, including
      later ones of the same name, is untouched. */
  lemma SetScannerPropertyFirstMatch(st: Storage, name: string, value: string, hr: int32, k: nat)
    requires DistinctIds(st) && !Failed(hr)
    requires k < |st| && UpToNul(st[k].name) == name
    requires forall j :: 0 <= j < k ==> UpToNul(st[j].name) != name
    ensures SetScannerProperty(Some(st), name, value, hr, hr, hr) ==
            Ok(st[k := st[k].(value := Bstr(UpToNul(value)))])
  {
    var v := Bstr(UpToNul(value));
    assert NameIs(name)(st[k]);
    assert FirstIndex(NameIs(name), st) == Some(k);
    var w := Write(st, st[k].propid, v);
    forall i | 0 <= i < |st|
      ensures w[i] == st[k := st[k].(value := v)][i]
    {
      if i < k {
        assert st[i].propid != st[k].propid;
      } else if i > k {
        assert st[k].propid != st[i].propid;
      }
    }
    assert w == st[k := st[k].(value := v)];
  }

  // ----------------------------------------------------------- enumeration

  /** What the device enumerator reports about one device: the result of
      reading its name, of reading its id, and of CreateDevice on that id. */
  datatype DeviceInfo = DeviceInfo(nameHr: int32, name: PropVariant, idHr: int32, id: PropVariant, createHr: int32)

  /** The entries whose name read succeeded as a BSTR. */
  predicate HasName(d: DeviceInfo)
  {
    !Failed(d.nameHr) && d.name.Bstr?
  }

  function NameOf(d: DeviceInfo): string
  {
    if d.name.Bstr? then UpToNul(d.name.text) else ""
  }

  const EnumerationFailed: string := "Failed to enumerate WIA devices"
  const PopulateFailed: string := "Exception during populateAvailableScanners: "

  /** populateAvailableScanners: the readable names, each up to its first
      NUL, in enumeration order. */
  function PopulateAvailableScanners(hasManager: bool, enumHr: int32, devices: seq<DeviceInfo>): (r: Result<seq<string>>)
    ensures !hasManager ==> r == Err(RuntimeError("WIA Device Manager not initialized"))
    ensures hasManager && Failed(enumHr) ==> r == Err(RuntimeError(EnumerationFailed))
    ensures r.Ok? <==> hasManager && !Failed(enumHr)
    ensures r.Ok? ==> |r.value| <= |devices|
    ensures r.Ok? ==> forall k :: 0 <= k < |devices| && HasName(devices[k]) ==> UpToNul(devices[k].name.text) in r.value
    ensures r.Ok? ==> (|r.value| > 0 <==> exists k :: 0 <= k < |devices| && HasName(devices[k]))
  {
    if !hasManager then Err(RuntimeError("WIA Device Manager not initialized"))
    else if Failed(enumHr) then Err(RuntimeError(EnumerationFailed))
    else
      ReadableNamesListed(devices);
      Ok(Map(NameOf, Filter(HasName, devices)))
  }

  /** The readable names, in order: no more names than devices, every
      readable name listed, and some name exactly when some device has one. */
  lemma ReadableNamesListed(devices: seq<DeviceInfo>)
    ensures var names := Map(NameOf, Filter(HasName, devices));
            && |names| <= |devices|
            && (forall k :: 0 <= k < |devices| && HasName(devices[k]) ==> UpToNul(devices[k].name.text) in names)
            && (|names| > 0 <==> exists k :: 0 <= k < |devices| && HasName(devices[k]))
  {
    var named := Filter(HasName, devices);
    var names := Map(NameOf, named);
    forall k | 0 <= k < |devices| && HasName(devices[k])
      ensures UpToNul(devices[k].name.text) in names
    {
      var j :| 0 <= j < |named| && named[j] == devices[k];
      assert names[j] == UpToNul(devices[k].name.text);
    }
    if |names| > 0 {
      assert named[0] in devices && HasName(named[0]);
    }
  }

  /** The list is exactly the readable names in order: there are positions
      idx, increasing, such that name k is the name of device idx[k], and a
      device is listed exactly when its name is readable. */
  lemma PopulateKeepsOrder(enumHr: int32, devices: seq<DeviceInfo>) returns (idx: seq<nat>)
    requires !Failed(enumHr)
    ensures var names := PopulateAvailableScanners(true, enumHr, devices).value;
            && |idx| == |names|
            && (forall k :: 0 <= k < |idx| ==> idx[k] < |devices| && HasName(devices[idx[k]]) && names[k] == UpToNul(devices[idx[k]].name.text))
            && (forall k, l :: 0 <= k < l < |idx| ==> idx[k] < idx[l])
            && (forall i :: 0 <= i < |devices| ==> (HasName(devices[i]) <==> i in idx))
  {
    idx := FilterSelects(HasName, devices);
  }

  /** initialize: COM start-up, manager creation, then the scanner list,
      which must not be empty. */
  function Initialize(coInitHr: int32, createHr: int32, enumHr: int32, devices: seq<DeviceInfo>): (r: Result<seq<string>>)
    ensures Failed(coInitHr) ==> r == Err(RuntimeError("CoInitialize failed with HRESULT: " + DecimalText(coInitHr as int)))
    ensures !Failed(coInitHr) && Failed(createHr) ==>
              r == Err(RuntimeError("CoCreateInstance failed with HRESULT: " + DecimalText(createHr as int)))
    ensures !Failed(coInitHr) && !Failed(createHr) && Failed(enumHr) ==>
              r == Err(RuntimeError(PopulateFailed + EnumerationFailed))
    ensures !Failed(coInitHr) && !Failed(createHr) && !Failed(enumHr) &&
            (forall k :: 0 <= k < |devices| ==> !HasName(devices[k])) ==>
              r == Err(RuntimeError("No scanners found."))
    ensures r.Ok? ==> |r.value| > 0 && r == PopulateAvailableScanners(true, enumHr, devices)
    ensures r.Ok? <==> !Failed(coInitHr) && !Failed(createHr) && !Failed(enumHr) && (exists k :: 0 <= k < |devices| && HasName(devices[k]))
  {
    if Failed(coInitHr) then Err(RuntimeError("CoInitialize failed with HRESULT: " + DecimalText(coInitHr as int)))
    else if Failed(createHr) then Err(RuntimeError("CoCreateInstance failed with HRESULT: " + DecimalText(createHr as int)))
    else match PopulateAvailableScanners(true, enumHr, devices)
      case Err(e) => Err(RuntimeError(PopulateFailed + e.what))
      case Ok(names) =>
        if |names| == 0 then Err(RuntimeError("No scanners found."))
        else Ok(names)
  }

  // ------------------------------------------------------------ name search

  /** towlower in the "C" locale, which _wcsicmp uses: only A-Z fold. */
  function Lower(c: char): char
  {
    if 'A' <= c <= 'Z' then (c as int + 32) as char else c
  }

  function Upper(c: char): char
  {
    if 'a' <= c <= 'z' then (c as int - 32) as char else c
  }

  /** _wcsicmp(a, b) == 0. */
  predicate EqualsIgnoreCase(a: string, b: string)
  {
    |a| == |b| && forall k :: 0 <= k < |a| ==> Lower(a[k]) == Lower(b[k])
  }

  /** The comparison is an equivalence and ignores ASCII case. */
  lemma EqualsIgnoreCaseProperties(a: string, b: string, c: string)
    ensures EqualsIgnoreCase(a, a)
    ensures EqualsIgnoreCase(a, b) ==> EqualsIgnoreCase(b, a)
    ensures EqualsIgnoreCase(a, b) && EqualsIgnoreCase(b, c) ==> EqualsIgnoreCase(a, c)
    ensures EqualsIgnoreCase(a, seq(|a|, k requires 0 <= k < |a| => Upper(a[k])))
  {
  }

  /** `_wcsicmp(name.c_str(), bstrVal) == 0`: both sides up to their first
      NUL, compared ignoring case. */
  function NameMatches(name: string): DeviceInfo -> bool
  {
    (d: DeviceInfo) => HasName(d) && EqualsIgnoreCase(UpToNul(name), UpToNul(d.name.text))
  }

  /** findDeviceByName: the id of the device created for the first readable
      name equal to `name` ignoring case. The search ends at that first
      match: if reading its id or creating it fails, there is no device. */
  function FindDeviceByName(enumHr: int32, devices: seq<DeviceInfo>, name: string): (r: Option<string>)
    ensures Failed(enumHr) ==> r.None?
    ensures (forall k :: 0 <= k < |devices| ==> !NameMatches(name)(devices[k])) ==> r.None?
    ensures r.Some? ==> exists k :: 0 <= k < |devices| && NameMatches(name)(devices[k])
                                    && (forall j :: 0 <= j < k ==> !NameMatches(name)(devices[j]))
                                    && devices[k].id == Bstr(r.value)
                                    && !Failed(devices[k].idHr) && !Failed(devices[k].createHr)
  {
    if Failed(enumHr) then None
    else match FirstIndex(NameMatches(name), devices)
      case None => None
      case Some(k) =>
        var d := devices[k];
        if !Failed(d.idHr) && d.id.Bstr? && !Failed(d.createHr) then Some(d.id.text) else None
  }

  /** The first match decides, whatever follows it. */
  lemma FindDeviceFirstMatchDecides(enumHr: int32, devices: seq<DeviceInfo>, name: string, k: nat)
    requires !Failed(enumHr) && k < |devices| && NameMatches(name)(devices[k])
    requires forall j :: 0 <= j < k ==> !NameMatches(name)(devices[j])
    ensures FindDeviceByName(enumHr, devices, name) ==
            (if !Failed(devices[k].idHr) && devices[k].id.Bstr? && !Failed(devices[k].createHr)
             then Some(devices[k].id.text) else None)
  {
    var fi := FirstIndex(NameMatches(name), devices);
    assert fi.Some? && fi.value == k by {
      assert NameMatches(name)(devices[k]);
    }
  }

  /** setPreferredScanner: the device found becomes the selected one. */
  function SetPreferredScanner(hasManager: bool, enumHr: int32, devices: seq<DeviceInfo>, name: string): (r: Result<string>)
    ensures !hasManager ==> r == Err(RuntimeError("WIA Device Manager not initialized"))
    ensures hasManager && FindDeviceByName(enumHr, devices, name).None? ==> r == Err(RuntimeError("Scanner not found"))
    ensures hasManager && FindDeviceByName(enumHr, devices, name).Some? ==>
              r == Ok(FindDeviceByName(enumHr, devices, name).value)
    ensures r.Ok? ==> Some(r.value) == FindDeviceByName(enumHr, devices, name)
  {
    if !hasManager then Err(RuntimeError("WIA Device Manager not initialized"))
    else match FindDeviceByName(enumHr, devices, name)
      case None => Err(RuntimeError("Scanner not found"))
      case Some(id) => Ok(id)
  }
}
